=== FILE: README.md ===
# Whisper Notes Pro, modelled in Dafny

Whisper Notes Pro is a desktop note-taking app. It has a React/TypeScript front end
and a Tauri/Rust back end. Notes live as `{id}.json` files in a `notes` directory. The app can
record speech and transcribe it into the open note with a local Whisper model.

The project models five parts of it and how they work together:

- the client **store** (`Store`, from `store.ts`): the note list, the selected note and the theme preference;
- the **note editor** (`Editor`, from `NoteEditor.tsx`): title and content being edited, the
  edit-mode flag, and how a transcript is merged into the content;
- the **recording controller** (`AudioWorkflow`, from `AudioRecorder.tsx`): its four flags, its
  handlers, what it renders, and the state machine those form;
- the **Tauri commands** (`Backend`, from `main.rs`): saving, deleting and loading note files,
  including the stable newest-first sort, plus the recording and model commands;
- the **Rust recorder** (`Recorder`, from `audio.rs`): the recording flag and recorded-file slot,
  transcript assembly, and the model-file check and download.

`App` wires these pieces together the way the running program does:

- store actions issue their commands against the notes directory;
- editor buttons go through the store;
- the controller drives the recorder and feeds transcripts into the editor.

`ModelScript` models the standalone download script, but only as far as the file it installs.

Helper modules:

- `Outcomes`: `Option`, `Result`, and `Status` for a call that returns nothing;
- `Seqs`: order-preserving `Filter`;
- `Text`: Rust's `trim`, Rust's `String` ordering, and decimal rendering of ids;
- `Notes`: the note record and untyped JavaScript values;
- `TimestampOrder`: the sort.

Everything outside the program is a parameter: the file system, the audio device, threads,
Whisper, the network, clocks and `Date.now()`. Each such step is replaced by the outcome it
reaches. The notes directory is a map from file name to entry. `read_dir`'s enumeration order is
a `listing` that names each entry exactly once.

Where the documentation of the app and its code disagree, the model follows the code:

- `deleteNote` drops **every** listed note with the id, not just one;
- a failed backend call re-raises its error after the store has left its state unchanged;
- the recording controller ignores a failed model preparation apart from showing
  "Speech recognition unavailable";
- new notes carry the current time as their timestamp, which the load order depends on. Nothing
  makes those timestamps increase.

## Model

| member | source | states |
|---|---|---|
| Store.Initial | app/src/store/store.ts:95 | the store starts with no notes and nothing selected, and its theme is dark exactly when "dark" is stored under the `theme` key |
| Store.SelectNote | app/src/store/store.ts:22-24 | selecting sets the selection to the given note (or none) and leaves the list and theme alone |
| Store.SelectionStaysListed | app/src/store/store.ts:36-94 | a selection that is one of the listed notes stays listed after a create, a delete, an update of a listed id, and a selection of a listed note |
| Store.SelectionCanDangle | app/src/store/store.ts:22-79 | the selection can name a note that is not listed: after selecting an unlisted note, after a load that drops the selected note, and after an update of an id the list does not hold |
| Store.GetNotes | app/src/store/store.ts:25-35 | a successful load replaces the list with what the backend returned and keeps selection and theme; a failed load leaves the store unchanged and re-raises the backend's error |
| Store.CreateNote | app/src/store/store.ts:36-57 | after a successful save, the new note (given id, title, content, time) is first and selected and the old list follows it unchanged; after a failed save, the store is unchanged and the error is re-raised |
| Store.ReplaceById | app/src/store/store.ts:70 | position by position, every note with the id is replaced by the new note and every other note is kept |
| Store.UpdateNote | app/src/store/store.ts:58-79 | after a successful save, the list keeps its length and order, only entries with the id become the new note, and the new note is selected; after a failed save, the store is unchanged and the error is re-raised |
| Store.DeleteNote | app/src/store/store.ts:80-94 | after a successful delete, the list holds exactly the old notes whose id differs, in their old order, each as often as before; the selection is cleared exactly when it was that id; on failure the store is unchanged and the error is re-raised |
| Store.SetTheme | app/src/store/store.ts:96-103 | the given theme, or the current one when none is given, becomes the store's theme and is written under `theme`; the body carries `dark` exactly when that theme is dark; no other class and no other state changes |
| Store.UpdateKeepsIds | app/src/store/store.ts:70 | a successful update leaves the sequence of ids in the list unchanged |
| Store.UpdateLeavesOneVersion | app/src/store/store.ts:69-72 | after a successful update, every listed note with the id is the new version |
| Store.DeleteTwiceIsDeleteOnce | app/src/store/store.ts:85-88 | deleting the same id twice gives the same store as deleting it once |
| Store.DeleteKeepsOrder | app/src/store/store.ts:86 | deletion distributes over any split of the list, so the surviving notes keep their relative order |
| Store.ReapplyThemeIdempotent | app/src/store/store.ts:96-103 | calling the theme setter with no argument a second time changes nothing, in the store or on the page |
| Store.StoredThemeReadsBack | app/src/store/store.ts:95-101 | a store created after `setTheme` reads back the theme that was set |
| Store.StartupKeepsStoredDark | app/src/App.tsx:12-15 | at startup with "dark" stored, the store is dark, the body gets the dark class and local storage is not changed |
| Store.CreateAllGrowsBySuccesses | app/src/store/store.ts:36-57 | after any sequence of creates, the list has grown by exactly the number of successful saves; the last saved note is first and selected; with no success the store is unchanged |
| Editor.NoteChanged | app/src/components/NoteEditor.tsx:20-27 | when the shown note changes, title and content reset to the note's; edit mode turns on for titles starting "Note 2" and otherwise keeps its value |
| Editor.Mount | app/src/components/NoteEditor.tsx:16-27 | a newly mounted editor shows the note's fields and is in edit mode exactly when the title starts "Note 2" |
| Editor.MergeTranscript | app/src/components/NoteEditor.tsx:40 | for empty content the result is the transcript; otherwise it is the content intact, then a blank line, then the transcript, with nothing else added |
| Editor.MergeInjective | app/src/components/NoteEditor.tsx:40 | for the same content, different transcripts give different merged content, so no transcript is lost |
| Editor.MergeTwice | app/src/components/NoteEditor.tsx:39-45 | merging two transcripts in turn equals merging their own merge once, unless the first transcript is empty and the content is not |
| Editor.HandleTranscription | app/src/components/NoteEditor.tsx:39-45 | a transcript is merged into the content, edit mode is on afterwards, and the title is untouched |
| Editor.TogglePressed | app/src/components/NoteEditor.tsx:64 | the pencil control flips edit mode and changes nothing else |
| Editor.ToggleTwiceRestores | app/src/components/NoteEditor.tsx:64 | pressing the pencil twice gives back the editor as it was |
| Editor.NoteChangedIdempotent | app/src/components/NoteEditor.tsx:20-27 | running the effect again for the note it has just shown changes nothing |
| Editor.NoteChangedDiscardsEdits | app/src/components/NoteEditor.tsx:20-27 | the effect's result depends only on the note and on whether edit mode was on, so unsaved title and content edits are discarded |
| Editor.NoteSwitched | app/src/components/NoteEditor.tsx:20-27 | the effect keyed on the note's id: a note with another id resets the fields, opens fresh titles in edit mode and otherwise keeps the edit flag, and a note with the same id changes nothing |
| Editor.HandleSaveAsWritten | app/src/components/NoteEditor.tsx:29-37 | as written, a save leaves edit mode while passing `updateNote` as its id the shown note spread with the edited title, the edited content and the new timestamp, and `undefined` as title and content |
| Editor.HandleSave | app/src/components/NoteEditor.tsx:29-37 | the corrected save leaves edit mode and passes the shown note's id with the edited title and content |
| AudioWorkflow.Mount | app/src/components/AudioRecorder.tsx:11-14 | a mounted controller is preparing, with the model not ready and nothing recording or processing |
| AudioWorkflow.PrepareModel | app/src/components/AudioRecorder.tsx:16-30 | after the model call settles, preparation is over whatever the outcome, and the model is ready exactly when it already was or the call succeeded |
| AudioWorkflow.StartRecording | app/src/components/AudioRecorder.tsx:32-42 | without a ready model the backend is not called and nothing changes; otherwise it is called; only a successful start sets recording, and nothing else ever changes |
| AudioWorkflow.StopRequested | app/src/components/AudioRecorder.tsx:44-47 | before the stop call is awaited, recording is off and processing is on |
| AudioWorkflow.StopAnswered | app/src/components/AudioRecorder.tsx:48-55 | once the stop call settles, processing is off, nothing else changes, and the transcript is delivered exactly when the call succeeded |
| AudioWorkflow.StopRecording | app/src/components/AudioRecorder.tsx:44-56 | a whole stop ends with neither recording nor processing, keeps readiness, and delivers the transcript if and only if transcription succeeded |
| AudioWorkflow.Gating | app/src/components/AudioRecorder.tsx:58-97 | Record is rendered exactly when preparation is over, the model is ready, and nothing records or processes; Stop exactly when ready and recording; neither while preparing or unavailable |
| AudioWorkflow.NextConsistent | app/src/components/AudioRecorder.tsx:16-56 | every enabled event keeps the flag combination consistent |
| AudioWorkflow.RunConsistent | app/src/components/AudioRecorder.tsx:16-56 | every run of events from a consistent controller ends consistent |
| AudioWorkflow.ReachableConsistent | app/src/components/AudioRecorder.tsx:11-56 | every controller reachable from mounting is consistent: never recording and processing at once, and neither without a ready model |
| AudioWorkflow.ConsistentGating | app/src/components/AudioRecorder.tsx:74-90 | in a reachable controller Stop is shown exactly while recording, and no control at all while processing |
| AudioWorkflow.PreparationNotRetried | app/src/components/AudioRecorder.tsx:16-30 | once preparation is over, no event changes readiness again |
| AudioWorkflow.UnavailableIsFinal | app/src/components/AudioRecorder.tsx:66-72 | after a failed preparation, no sequence of events changes the controller |
| Recorder.New | app/src-tauri/src/audio.rs:53-58 | a new recorder is not recording and holds no file |
| Recorder.StartRecordingAsWritten | app/src-tauri/src/audio.rs:60-141 | as written: a recording recorder refuses with "Already recording"; device and file errors change nothing; a ready stream records to the path; a failed handshake fails but leaves the flag set with no file |
| Recorder.StartRecording | app/src-tauri/src/audio.rs:60-141 | corrected: a start succeeds if and only if the recorder is idle and the stream comes up, and it then records to the path; any failure leaves the recorder unchanged |
| Recorder.StopRecording | app/src-tauri/src/audio.rs:143-154 | a stop always leaves an idle recorder with no file; it hands back the recorded path or reports "No recording in progress" |
| Recorder.StartStopKeepCoherent | app/src-tauri/src/audio.rs:60-154 | the corrected start and the stop keep "recording exactly while a file is held" |
| Recorder.SecondStopFails | app/src-tauri/src/audio.rs:143-154 | a second stop in a row reports that nothing is recording |
| Recorder.HandshakeFailureBlocksStarts | app/src-tauri/src/audio.rs:60-141 | as written, after a failed handshake every later start fails with "Already recording" whatever the device does, and a stop finds no recording |
| Recorder.JoinSegmentsSpacesFetched | app/src-tauri/src/audio.rs:203-209 | the loop's text is each fetched segment followed by one space, in order, with failed segments contributing nothing |
| Recorder.Transcript | app/src-tauri/src/audio.rs:203-216 | the transcript neither starts nor ends with whitespace and is a slice of the joined text with only whitespace around it |
| Recorder.TranscribeAudio | app/src-tauri/src/audio.rs:156-217 | the checks fail in the code's order (data directory, then model file, then WAV file); the transcription succeeds if and only if the model is usable, the file decodes and inference produces segments, and it then returns their trimmed join |
| Recorder.TranscriptOfCleanSegments | app/src-tauri/src/audio.rs:203-216 | when every fetched segment is non-empty and has no leading or trailing whitespace, the transcript is exactly those segments separated by single spaces |
| Recorder.FailedSegmentsSkipped | app/src-tauri/src/audio.rs:204-209 | a segment whose text cannot be fetched leaves no trace in the joined text |
| Recorder.EnsureModelExistsAsWritten | app/src-tauri/src/audio.rs:16-44 | as written: any file at the model path is accepted without a download; a download is attempted exactly when the directory exists and there is no file; only the model file can change |
| Recorder.EnsureModelExists | app/src-tauri/src/audio.rs:16-44 | corrected: same download decision; any failure leaves the models directory as it was; a successful download leaves a usable model |
| Recorder.EnsureKeepsModelUsable | app/src-tauri/src/audio.rs:16-44 | with the corrected check, no corrupt model file ever appears, and success means a usable model is in place |
| Recorder.EnsureIdempotent | app/src-tauri/src/audio.rs:21-43 | after a successful call, a second call downloads nothing, leaves the models directory as it is and answers the same path, both as written and as repaired |
| Recorder.InterruptedDownloadIsAccepted | app/src-tauri/src/audio.rs:23-38 | as written, a write that fails part-way leaves a corrupt file; the next call accepts it without downloading, and transcription then fails |
| Backend.NoteFileNameInjective | app/src-tauri/src/main.rs:48 | distinct ids are stored in distinct files |
| Backend.NoteFileIsJson | app/src-tauri/src/main.rs:100 | every note's file name has the `json` extension that loading looks for |
| Backend.LastDot | app/src-tauri/src/main.rs:100 | finds the last '.' of a file name, or reports that there is none |
| Backend.SaveNote | app/src-tauri/src/main.rs:29-59 | a save succeeds exactly when the data directory is found, both directories are created and the write completes; success stores the note under `{id}.json`; no other file ever changes |
| Backend.SaveIsUpsert | app/src-tauri/src/main.rs:48-55 | two successful saves of the same id leave what the second save alone would |
| Backend.DeleteNote | app/src-tauri/src/main.rs:61-76 | a delete fails exactly when the data directory is missing or removing an existing file fails; success leaves every file except `{id}.json`; a missing file counts as success and changes nothing |
| Backend.DeleteIdempotent | app/src-tauri/src/main.rs:70-75 | after a successful delete, deleting the same id again succeeds and changes nothing |
| Backend.ReadNotes | app/src-tauri/src/main.rs:95-109 | reading succeeds if and only if no `.json` regular file is unreadable or unparsable; it then returns, in listing order, the note of every such file and nothing else; otherwise it reports the first broken file in listing order |
| Backend.SortIsOrderedAndStable | app/src-tauri/src/main.rs:112 | the sort's result is newest timestamp first, and for every timestamp the notes carrying it keep their input order |
| Backend.LoadNotes | app/src-tauri/src/main.rs:78-114 | a missing directory is created and yields no notes, or, when it cannot be created, the load fails with "Failed to create notes directory" and nothing changes; a directory that cannot be read fails with "Failed to read notes directory", and a broken note file fails with the reading loop's error; otherwise the load succeeds if and only if the directory is read and no note file is broken, and it returns exactly the notes read, newest first, stably |
| Backend.LoadedNotesAreStored | app/src-tauri/src/main.rs:95-113 | every note a load returns is the contents of a regular file in the directory |
| Backend.RecordingTarget | app/src-tauri/src/main.rs:118-127 | the target is found exactly when the data and recordings directories are, and it is named after the local time |
| Backend.StartAudioRecordingAsWritten | app/src-tauri/src/main.rs:116-130 | as written: a start succeeds if and only if the directories exist, the recorder is idle and the stream comes up, and it then records to the time-stamped path; missing directories or a recording recorder change nothing; a failed handshake reports the thread error and leaves the recorder flagged as recording with its old file |
| Backend.StartsDifferOnlyOnHandshake | app/src-tauri/src/main.rs:116-130 | the command as written and with the corrected recorder give the same result for every input except an idle recorder, found directories and a capture thread that fails to signal |
| Backend.StartAudioRecording | app/src-tauri/src/main.rs:116-130 | with the corrected recorder: a start succeeds if and only if the directories exist, the recorder is idle and the stream comes up; it then records to the time-stamped path; otherwise the recorder is unchanged |
| Backend.StopAudioRecording | app/src-tauri/src/main.rs:132-137 | the recorder is always left idle; with no recording the error is "No recording in progress", otherwise the answer is the transcription of the recorded file |
| Backend.EnsureModelReadyAsWritten | app/src-tauri/src/main.rs:139-147 | as written: without a data directory nothing happens and an error comes back; a download happens exactly when the data directory is found, the models directory is made and there is no model file; other files never change; a success leaves a model file, and a write that fails after the file is created leaves a corrupt model behind with an error |
| Backend.EnsureModelReady | app/src-tauri/src/main.rs:139-147 | with the corrected model check: the same no-directory error and download decision; a failure leaves the models directory unchanged, and a directory with no corrupt model never gains one |
| Backend.DecodeNote | app/src-tauri/src/main.rs:16-22 | the command's arguments decode to a note if and only if the id is an integer within `i64` and the other fields are strings, and then to exactly those values |
| TimestampOrder.SortNewestFirst | app/src-tauri/src/main.rs:112 | the sort's result is a permutation of its input |
| TimestampOrder.InsertKeepsOrder | app/src-tauri/src/main.rs:112 | inserting a note into a newest-first list keeps it newest first |
| TimestampOrder.SortIsOrdered | app/src-tauri/src/main.rs:112 | the sort's result is ordered newest timestamp first, using Rust's `String` ordering |
| TimestampOrder.InsertStable | app/src-tauri/src/main.rs:112 | among notes with a given timestamp, an inserted note lands in front of those already there |
| TimestampOrder.SortIsStable | app/src-tauri/src/main.rs:112 | for every timestamp, notes with that timestamp appear in the result in their input order |
| Text.LexLeTotal | app/src-tauri/src/main.rs:112 | any two timestamps are comparable |
| Text.LexLeTransitive | app/src-tauri/src/main.rs:112 | the timestamp ordering is transitive |
| Text.LexLeAntisymmetric | app/src-tauri/src/main.rs:112 | timestamps ordered both ways are equal |
| Text.Trim | app/src-tauri/src/audio.rs:216 | the result neither starts nor ends with whitespace and is a slice of the input with only whitespace around it |
| Text.TrimIdempotent | app/src-tauri/src/audio.rs:216 | trimming twice is trimming once |
| Text.IntToStringRoundTrip | app/src-tauri/src/main.rs:48 | the decimal text of an id parses back to that id |
| Seqs.FilterMembership | app/src/store/store.ts:86 | a note survives the filter exactly when it was listed and passes the condition |
| ModelScript.RunScriptAsWritten | app/scripts/download-model.js:20-33 | the script installs `ggml-base.en.bin` and leaves existing files alone |
| ModelScript.RunScript | app/scripts/download-model.js:20-33 | the corrected script installs a usable model under the name the backend checks for |
| ModelScript.ScriptAsWrittenMissesModel | app/scripts/download-model.js:23 | running the script as written still leaves transcription reporting the model missing, and preparation still downloads it |
| ModelScript.ScriptInstallsModel | app/scripts/download-model.js:20-33 | after the corrected script, whose download is taken to deliver the model, the backend finds a usable model and does not download |
| App.CreateKeepsSync | app/src/store/store.ts:36-57 | creating a note under a new id keeps every stored note identical to its file on disk, whether the save succeeds or fails |
| App.UpdateKeepsSync | app/src/store/store.ts:58-79 | an update keeps store and disk in step, unless a write breaks off part-way through a held note's file |
| App.DeleteKeepsSync | app/src/store/store.ts:80-94 | a delete, successful or not, keeps store and disk in step |
| App.LoadSyncs | app/src/store/store.ts:25-35 | after a successful load, every note in the store is exactly what its file holds, whatever the store held before |
| App.FailuresLeaveStore | app/src/store/store.ts:52-56 | a failed load, create or update leaves the store exactly as it was |
| App.SaveAsWrittenPersistsNothing | app/src/components/NoteEditor.tsx:29-37 | as written, Save always fails and changes neither the store nor the disk, yet the editor leaves edit mode |
| App.SavePersistsEdits | app/src/components/NoteEditor.tsx:20-37 | with the corrected call, a Save whose write succeeds stores the edited note on disk, selects it, and makes it the only version of its id in the list; the editor keeps the edited fields, and the effect the new note object triggers leaves it in edit mode exactly when the title starts "Note 2" |
| App.FailedSaveLeavesEditMode | app/src/components/NoteEditor.tsx:29-37 | a Save whose write fails (without breaking off part-way) changes neither the store nor the disk, and the editor leaves edit mode with the unsaved edits still shown |
| App.KeyedSaveLeavesEditMode | app/src/components/NoteEditor.tsx:20-37 | with the effect keyed on the note's id, a successful Save stores exactly what the unkeyed Save stores and leaves the editor out of edit mode for every title |
| App.ClickShowsNote | app/src/components/NoteSidebar.tsx:45 | clicking a note selects it without touching the list or the disk; a newly selected note's title and content replace any unsaved edits, and edit mode is on exactly when it was already on in a shown editor or the title starts "Note 2"; clicking the selected note changes nothing; a listed selection stays listed |
| App.ClickIdempotent | app/src/components/NoteSidebar.tsx:45 | a second click on the same note changes nothing more |
| App.DeletePressedRemovesNote | app/src/components/NoteEditor.tsx:68 | after a successful delete from the editor, neither store nor disk holds the note's id, and a selection of it is cleared |
| App.MountedInStep | app/src/components/AudioRecorder.tsx:11-14 | at app start, with the recorder new, the first mounted controller is in step with it |
| App.MountInStepExactlyWhenIdle | app/src/components/AudioRecorder.tsx:11-14 | a freshly mounted controller is in step with a recorder if and only if that recorder is idle and holds no file |
| App.RemountWhileRecordingStrands | app/src/App.tsx:20-26 | as written, when the editor unmounts during a recording and a note is selected again, the new controller is out of step: once its model is ready it offers Record, it never offers Stop, Record and Stop change nothing, and the recording goes on |
| App.RemountStoppingInStep | app/src/App.tsx:20-26 | with a cleanup that stops the recording on unmount, every later mount is in step over a new recorder, whatever the unmounted session was doing |
| App.ActionsKeepInStep | app/src/components/AudioRecorder.tsx:32-56 | while one controller stays mounted, with the corrected recorder start, model preparation, Record and Stop keep the controller's recording flag equal to the recorder's, so Stop is shown exactly while the recorder records; with the start as written, Record keeps them in step whenever the capture thread signals |
| App.StopMergesOnlyOnSuccess | app/src/components/AudioRecorder.tsx:44-56 | a stop changes the note only when transcription succeeds, and then by merging the transcript in; recording and processing both end |
| App.FailedStartRecovers | app/src-tauri/src/audio.rs:60-141 | with the corrected recorder, a failed start leaves Record offered, and the next start can succeed |
| App.HandshakeFailureStrandsSession | app/src-tauri/src/audio.rs:87-137 | as written, a failed handshake strands the session: Stop is never offered again, and Record and Stop change nothing |

## Left out

- I/O is replaced by outcome parameters. This covers the data-directory lookup, the file system,
  `read_dir`, serde, the audio device and capture thread, WAV encoding and decoding, Whisper,
  HTTP and timers. The text of the underlying OS, serde or Whisper errors is not modelled; only the
  code's message prefixes are.
- JSON serialisation of a note is assumed to round-trip, so a readable file either parses to a
  note or is unparsable. `serde_json`'s format is not modelled.
- Concurrency is not modelled: the `AtomicBool`, the capture thread, the 200 ms sleep in
  `stop_recording`, React's asynchronous state updates, and two presses racing before a re-render.
  Handlers are modelled as atomic steps, split only where the stop awaits.
- React's stale closure over `content` in `handleTranscription` is not modelled. The transcript is
  merged into the editor's current content.
- Removing the WAV file after transcription, and the warning when that fails, are not modelled.
- Audio samples, the sample-format conversion and the 16 kHz mono `WavSpec` are not modelled.
- A failing `read_dir` entry (main.rs line 97) is folded into the single `readDir` outcome.
- Symbolic links are not modelled. `is_file` is modelled as "a regular file".
- The app's startup sequence is not modelled. `App.tsx` calls `getNotes` then `setTheme` once; only
  the theme half is stated, in `Store.StartupKeepsStoredDark`.
- App.ClickShowsNote: React compares note objects by identity; the model compares them by value.
  They agree in this app: `getNotes` runs only at startup, and every other store action selects the
  very object it puts in the list.
- The sidebar's locale-formatted titles are not modelled. The editor only needs to know whether a
  title starts "Note 2".
- Toasts and console logging are not modelled.
- Store.CreateNote: the id is whatever `Date.now()` gives, passed in as a parameter. Nothing
  requires it to be fresh. `App.CreateKeepsSync` requires freshness, because two notes created in
  the same millisecond share a file.
- Store.CreateNote, Store.UpdateNote: timestamps are parameters. Nothing states that they grow
  over time, because the code does not ensure it.
- Note ids are unbounded integers everywhere except `Backend.DecodeNote`, where the `i64` range
  is enforced. JavaScript numbers are modelled as integers only (`Field.Number`). Fractional ids
  and the loss of precision above 2^53 are not modelled.
- Backend.SaveNote: an interrupted `fs::write` is modelled as leaving an unparsable file. How much
  of the file was written is not modelled.
- Recorder.TranscribeAudio: a corrupt model is reported as the context failing to load. The
  Whisper error text and the later failure points (creating the state, processing, counting
  segments) are folded into one `InferenceFailed` outcome.
- ModelScript.RunScriptAsWritten: the script's HTTP download is assumed to succeed. Its progress
  output, and the partial file left when the response fails after piping has begun, are not modelled.
- ModelScript.ScriptInstallsModel: "usable" rests on that assumption. `https.get`
  (download-model.js line 41) neither follows redirects nor checks the status code, and the model
  URL's `resolve` path usually answers with a redirect, so even the corrected script can save the
  redirect's body as `ggml-base.bin`, which `ensure_model_exists` then accepts.
- App.MountedInStep, App.ActionsKeepInStep: they hold for the first controller and for as long as
  one controller stays mounted. A remount over a recording recorder breaks them; that case is under
  "## Findings".
- AudioWorkflow.PrepareModel: the code only logs a failed preparation, so the contract states only
  what a failure does to the flags.

## Findings

| source | as written | input that shows it | evidently intended | confidence | as-written member | corrected member |
|---|---|---|---|---|---|---|
| app/src/components/NoteEditor.tsx:29-37 | `handleSave` calls `updateNote({...note, title, content, timestamp})`, one object, but `updateNote` takes `(id, title, content)`; the backend then gets a note whose id is an object and whose title and content are undefined, which serde refuses | any Save press, e.g. note 1 with edited title "a" | `updateNote(note.id, title, content)`, so the edited note is written and shown | not executed | App.SaveAsWrittenPersistsNothing | App.SavePersistsEdits |
| app/src/components/NoteEditor.tsx:20-27 | the effect that resets the fields depends on the note object, and a successful save selects a new object for the same note, so the effect runs again right after `handleSave` leaves edit mode and turns it back on for titles starting "Note 2"; with the save call corrected, such notes stay in edit mode after every Save | Save on a note created from the sidebar, titled "Note 2025-03-14 10:00:00", under a year-first locale | Save leaves edit mode for every title; the effect runs only when a different note is shown | not executed | App.SavePersistsEdits | App.KeyedSaveLeavesEditMode |
| app/src/App.tsx:20-26 | the editor, with the recorder controls inside it, is shown only while a note is selected; the trash button stays available while recording, and deleting the shown note clears the selection, so the controls unmount with no cleanup while the process-wide recorder keeps recording; the next selected note mounts controls that offer only Record, which fails with "Already recording" from then on | press Record, then the trash button on the shown note, then select another note | unmounting the controls stops the recording, so the next ones start in step | not executed | App.RemountWhileRecordingStrands | App.RemountStoppingInStep |
| app/src-tauri/src/audio.rs:87-137 | `start_recording` sets `is_recording` before the thread handshake and returns early when the handshake fails without clearing it; the UI then offers only Record, which fails with "Already recording" from then on | a capture thread that panics before signalling (e.g. `build_input_stream` erroring) | a failed start leaves the recorder idle so that Record can work again | not executed | App.HandshakeFailureStrandsSession | App.FailedStartRecovers |
| app/src-tauri/src/audio.rs:23-38 | the model counts as present whenever any file exists at its path, but a failed `write_all` leaves a truncated file and an HTTP error response is written as if it were the model | a disk that fills up during `write_all` of the buffered body, or a 404 page from the model URL | only a complete, valid model is kept; a failed download leaves no file | not executed | Recorder.InterruptedDownloadIsAccepted | Recorder.EnsureKeepsModelUsable |
| app/scripts/download-model.js:23 | the script saves the model as `ggml-base.en.bin`, while the backend and its "run the download-model script" error message look for `ggml-base.bin` | running the script on a fresh install | the script installs `ggml-base.bin` | not executed | ModelScript.ScriptAsWrittenMissesModel | ModelScript.ScriptInstallsModel |

=== FILE: app.dfy ===
/** The pieces wired together as the running application wires them: the store
    issuing its commands against the notes directory, the editor's save and
    delete controls going through the store, and the recording controller driving
    the Rust recorder and feeding transcripts into the editor. */
module App {
  import opened Outcomes
  import opened Notes
  import opened Seqs
  import Store
  import Backend
  import Editor
  import Text
  import AudioWorkflow
  import Recorder

  /** The client store and the notes directory behind it. */
  datatype System = System(store: Store.State, dir: Backend.NotesDir)

  /** The system after an action and how the store action ended. */
  datatype Outcome = Outcome(system: System, status: Status)

  /** `createNote` with its `save_note` call. */
  function CreateNote(sys: System, title: string, content: string, id: int, stamp: string, io: Backend.SaveIo): Outcome {
    var saved := Backend.SaveNote(sys.dir, Note(id, title, content, stamp), io);
    var step := Store.CreateNote(sys.store, title, content, id, stamp, saved.status);
    Outcome(System(step.state, saved.dir), step.outcome)
  }

  /** `updateNote` called with `args`: the note object it builds is read by
      serde; when that fails the call is rejected before `save_note` runs, and
      the store, catching the rejection, re-raises it with its state unchanged. */
  function UpdateNote(sys: System, args: Editor.UpdateArguments, stamp: string, io: Backend.SaveIo): Outcome {
    match Backend.DecodeNote(NoteFields(args.id, args.title, args.content, Str(stamp)))
    case Err(e) => Outcome(sys, Err(e))
    case Ok(note) =>
      var saved := Backend.SaveNote(sys.dir, note, io);
      var step := Store.UpdateNote(sys.store, note.id, note.title, note.content, note.timestamp, saved.status);
      Outcome(System(step.state, saved.dir), step.outcome)
  }

  /** `deleteNote` with its `delete_note` call. */
  function DeleteNote(sys: System, id: int, io: Backend.DeleteIo): Outcome {
    var removed := Backend.DeleteNote(sys.dir, id, io);
    var step := Store.DeleteNote(sys.store, id, removed.status);
    Outcome(System(step.state, removed.dir), step.outcome)
  }

  /** `getNotes` with its `load_notes` call. */
  function GetNotes(sys: System, listing: seq<string>, io: Backend.LoadIo): Outcome
    requires Backend.Lists(sys.dir, listing)
  {
    var loaded := Backend.LoadNotes(sys.dir, listing, io);
    var step := Store.GetNotes(sys.store, loaded.notes);
    Outcome(System(step.state, loaded.dir), step.outcome)
  }

  /** Every parsed note file is named after its note's id, as `save_note` names them. */
  predicate WellNamed(d: Backend.NotesDir) {
    forall f :: f in Backend.Files(d) && Backend.Files(d)[f].RegularFile? && Backend.Files(d)[f].content.Parsed?
      ==> f == Backend.NoteFileName(Backend.Files(d)[f].content.note.id)
  }

  /** Every note the store holds is exactly what its file on disk holds. */
  predicate Mirrors(sys: System) {
    forall n :: n in sys.store.notes ==>
      var f := Backend.NoteFileName(n.id);
      f in Backend.Files(sys.dir) && Backend.Files(sys.dir)[f] == Backend.RegularFile(Backend.Parsed(n))
  }

  predicate Synced(sys: System) {
    WellNamed(sys.dir) && Mirrors(sys)
  }

  /** Creating a note under an id the store does not hold keeps the store in
      step with the disk, whether or not the save succeeds. */
  lemma CreateKeepsSync(sys: System, title: string, content: string, id: int, stamp: string, io: Backend.SaveIo)
    requires Synced(sys)
    requires forall n :: n in sys.store.notes ==> n.id != id
    ensures Synced(CreateNote(sys, title, content, id, stamp, io).system)
  {
    var r := CreateNote(sys, title, content, id, stamp, io).system;
    forall n | n in r.store.notes && n.id != id
      ensures Backend.NoteFileName(n.id) != Backend.NoteFileName(id)
    {
      if Backend.NoteFileName(n.id) == Backend.NoteFileName(id) {
        Backend.NoteFileNameInjective(n.id, id);
      }
    }
  }

  /** Updating keeps the store in step with the disk, unless a write breaks off
      part-way through the file of a note the store holds. */
  lemma UpdateKeepsSync(sys: System, id: int, title: string, content: string, stamp: string, io: Backend.SaveIo)
    requires Synced(sys)
    requires !io.write.InterruptedWrite? || forall n :: n in sys.store.notes ==> n.id != id
    ensures Synced(UpdateNote(sys, Editor.UpdateArguments(Number(id), Str(title), Str(content)), stamp, io).system)
  {
    var r := UpdateNote(sys, Editor.UpdateArguments(Number(id), Str(title), Str(content)), stamp, io).system;
    forall n | n in r.store.notes && n.id != id
      ensures Backend.NoteFileName(n.id) != Backend.NoteFileName(id)
    {
      if Backend.NoteFileName(n.id) == Backend.NoteFileName(id) {
        Backend.NoteFileNameInjective(n.id, id);
      }
    }
  }

  /** Deleting keeps the store in step with the disk. */
  lemma DeleteKeepsSync(sys: System, id: int, io: Backend.DeleteIo)
    requires Synced(sys)
    ensures Synced(DeleteNote(sys, id, io).system)
  {
    var r := DeleteNote(sys, id, io).system;
    forall n | n in r.store.notes && n.id != id
      ensures Backend.NoteFileName(n.id) != Backend.NoteFileName(id)
    {
      if Backend.NoteFileName(n.id) == Backend.NoteFileName(id) {
        Backend.NoteFileNameInjective(n.id, id);
      }
    }
  }

  /** A successful load puts the store in step with the disk, whatever the store held before. */
  lemma LoadSyncs(sys: System, listing: seq<string>, io: Backend.LoadIo)
    requires WellNamed(sys.dir) && Backend.Lists(sys.dir, listing)
    requires GetNotes(sys, listing, io).status.Ok?
    ensures Synced(GetNotes(sys, listing, io).system)
  {
    var loaded := Backend.LoadNotes(sys.dir, listing, io);
    Backend.LoadedNotesAreStored(sys.dir, listing, io);
    forall n | n in loaded.notes.value
      ensures Backend.NoteFileName(n.id) in Backend.Files(sys.dir)
      ensures Backend.Files(sys.dir)[Backend.NoteFileName(n.id)] == Backend.RegularFile(Backend.Parsed(n))
    {
      var f :| f in Backend.Files(sys.dir) && Backend.Files(sys.dir)[f] == Backend.RegularFile(Backend.Parsed(n));
    }
  }

  /** A failed load, create or update leaves the store exactly as it was. */
  lemma FailuresLeaveStore(sys: System, title: string, content: string, id: int, stamp: string,
                           args: Editor.UpdateArguments, saveIo: Backend.SaveIo,
                           listing: seq<string>, loadIo: Backend.LoadIo)
    requires Backend.Lists(sys.dir, listing)
    ensures CreateNote(sys, title, content, id, stamp, saveIo).status.Err? ==>
              CreateNote(sys, title, content, id, stamp, saveIo).system.store == sys.store
    ensures UpdateNote(sys, args, stamp, saveIo).status.Err? ==> UpdateNote(sys, args, stamp, saveIo).system.store == sys.store
    ensures GetNotes(sys, listing, loadIo).status.Err? ==> GetNotes(sys, listing, loadIo).system.store == sys.store
  {
  }

  datatype Edited = Edited(system: System, editor: Editor.EditorState, status: Status)

  /** The system with the editor the main pane shows, if any. */
  datatype Viewed = Viewed(system: System, editor: Option<Editor.EditorState>)

  /** The main pane after the selection goes from `prev` to `next`: the editor
      is not keyed, so a first selection mounts it, a different note object
      re-runs its effect with the edit state it already has, and the same
      object leaves it alone. */
  function Rerendered(prev: Option<Note>, shown: Editor.EditorState, next: Option<Note>): Option<Editor.EditorState> {
    match next
    case None => None
    case Some(n) =>
      if prev.None? then Some(Editor.Mount(n))
      else if prev == next then Some(shown)
      else Some(Editor.NoteChanged(shown, n))
  }

  /** A click on a note in the sidebar's list. */
  function NoteClicked(sys: System, shown: Editor.EditorState, n: Note): Viewed {
    Viewed(System(Store.SelectNote(sys.store, Some(n)), sys.dir), Rerendered(sys.store.selected, shown, Some(n)))
  }

  /** Clicking a note shows it: a newly selected note's title and content
      replace whatever was being edited, fresh titles open in edit mode, and an
      edit mode already on carries over to the next note; a click on the
      selected note changes nothing; a click keeps the selection listed and
      leaves the disk alone. */
  lemma ClickShowsNote(sys: System, shown: Editor.EditorState, n: Note)
    ensures var r := NoteClicked(sys, shown, n);
            && r.system.store.selected == Some(n) && r.system.store.notes == sys.store.notes
            && r.system.dir == sys.dir && r.editor.Some?
            && (sys.store.selected != Some(n) ==>
                  && r.editor.value.title == n.title && r.editor.value.content == n.content
                  && (r.editor.value.isEditing <==>
                        (sys.store.selected.Some? && shown.isEditing) || Text.StartsWith(n.title, Editor.FreshTitlePrefix)))
            && (sys.store.selected == Some(n) ==> r.editor == Some(shown))
            && (Store.SelectionListed(sys.store) && n in sys.store.notes ==> Store.SelectionListed(r.system.store))
  {
    var r := NoteClicked(sys, shown, n);
    if sys.store.selected.None? {
      assert r.editor == Some(Editor.Mount(n));
    } else if sys.store.selected != Some(n) {
      assert r.editor == Some(Editor.NoteChanged(shown, n));
    }
  }

  /** A second click on the same note does nothing more. */
  lemma ClickIdempotent(sys: System, shown: Editor.EditorState, n: Note)
    ensures var once := NoteClicked(sys, shown, n);
            NoteClicked(once.system, once.editor.value, n) == once
  {
  }

  /** The Save control as written: `handleSave`'s single object reaches `updateNote`. */
  function SavePressedAsWritten(sys: System, e: Editor.EditorState, note: Note, stamp: string, io: Backend.SaveIo): Edited {
    var saved := Editor.HandleSaveAsWritten(e, note, stamp);
    var r := UpdateNote(sys, saved.call, stamp, io);
    Edited(r.system, saved.editor, r.status)
  }

  /** The Save control passing the id, title and content `updateNote` takes.
      `handleSave` leaves edit mode at once; when the save then succeeds, the
      store selects a new note object, and the editor's effect, which depends
      on that object, runs again for it. */
  function SavePressed(sys: System, e: Editor.EditorState, note: Note, stamp: string, io: Backend.SaveIo): Edited {
    var saved := Editor.HandleSave(e, note);
    var r := UpdateNote(sys, saved.call, stamp, io);
    var editor := if r.status.Ok? && r.system.store.selected.Some?
                  then Editor.NoteChanged(saved.editor, r.system.store.selected.value)
                  else saved.editor;
    Edited(r.system, editor, r.status)
  }

  /** The repaired Save with the editor's effect keyed on the note's id, so the
      store's new object for the same note does not re-run it. */
  function SavePressedKeyed(sys: System, e: Editor.EditorState, note: Note, stamp: string, io: Backend.SaveIo): Edited {
    var saved := Editor.HandleSave(e, note);
    var r := UpdateNote(sys, saved.call, stamp, io);
    var editor := if r.status.Ok? && r.system.store.selected.Some?
                  then Editor.NoteSwitched(saved.editor, note, r.system.store.selected.value)
                  else saved.editor;
    Edited(r.system, editor, r.status)
  }

  /** As written, Save never persists anything: the call is rejected, the store
      and the disk are untouched, and the editor leaves edit mode all the same. */
  lemma SaveAsWrittenPersistsNothing(sys: System, e: Editor.EditorState, note: Note, stamp: string, io: Backend.SaveIo)
    ensures var r := SavePressedAsWritten(sys, e, note, stamp, io);
            r.system == sys && r.status.Err? && !r.editor.isEditing
  {
  }

  /** With the arguments the store expects, a Save whose write succeeds stores
      the edited title and content under the note's id, on disk and in the
      store; the effect the new selection triggers then puts the editor back in
      edit mode exactly when the title starts like a fresh note's. */
  lemma SavePersistsEdits(sys: System, e: Editor.EditorState, note: Note, stamp: string, io: Backend.SaveIo)
    requires -0x8000_0000_0000_0000 <= note.id < 0x8000_0000_0000_0000
    requires io.dataDirFound && io.makeAppDir.Ok? && io.makeNotesDir.Ok? && io.write.Written?
    ensures var r := SavePressed(sys, e, note, stamp, io);
            var edited := Note(note.id, e.title, e.content, stamp);
            && r.status.Ok?
            && r.system.store.selected == Some(edited)
            && Backend.Files(r.system.dir)[Backend.NoteFileName(note.id)] == Backend.RegularFile(Backend.Parsed(edited))
            && (forall n :: n in r.system.store.notes && n.id == note.id ==> n == edited)
            && r.editor.title == e.title && r.editor.content == e.content
            && (r.editor.isEditing <==> Text.StartsWith(e.title, Editor.FreshTitlePrefix))
  {
  }

  /** A Save that fails leaves the store and the disk's other files alone and
      the editor out of edit mode, with the unsaved edits still shown. */
  lemma FailedSaveLeavesEditMode(sys: System, e: Editor.EditorState, note: Note, stamp: string, io: Backend.SaveIo)
    requires !io.write.InterruptedWrite?
    requires SavePressed(sys, e, note, stamp, io).status.Err?
    ensures var r := SavePressed(sys, e, note, stamp, io);
            && r.system.store == sys.store && Backend.Files(r.system.dir) == Backend.Files(sys.dir)
            && r.editor == e.(isEditing := false)
  {
  }

  /** With the effect keyed on the id, a successful Save leaves edit mode for
      every title, and stores exactly what the unkeyed Save stores. */
  lemma KeyedSaveLeavesEditMode(sys: System, e: Editor.EditorState, note: Note, stamp: string, io: Backend.SaveIo)
    requires -0x8000_0000_0000_0000 <= note.id < 0x8000_0000_0000_0000
    requires io.dataDirFound && io.makeAppDir.Ok? && io.makeNotesDir.Ok? && io.write.Written?
    ensures var r := SavePressedKeyed(sys, e, note, stamp, io);
            && r.status.Ok?
            && r.system == SavePressed(sys, e, note, stamp, io).system
            && r.editor == e.(isEditing := false)
  {
  }

  /** The trash control deletes exactly the shown note's id: once it succeeds,
      neither the store nor the disk holds that id, and a selection of it is cleared. */
  lemma DeletePressedRemovesNote(sys: System, note: Note, io: Backend.DeleteIo)
    requires DeleteNote(sys, note.id, io).status.Ok?
    ensures var r := DeleteNote(sys, note.id, io).system;
            && (forall n :: n in r.store.notes ==> n.id != note.id)
            && Backend.NoteFileName(note.id) !in Backend.Files(r.dir)
            && (sys.store.selected == Some(note) ==> r.store.selected == None)
  {
  }

  /** One mounted editor with its recording controller, and the Rust recorder. */
  datatype Session = Session(ctrl: AudioWorkflow.Controller, rec: Recorder.Recorder, editor: Editor.EditorState)

  /** The mount effect's `ensure_model_ready` call settling. */
  function ModelPrepared(s: Session, ready: Status): Session {
    if !s.ctrl.preparing then s else s.(ctrl := AudioWorkflow.PrepareModel(s.ctrl, ready))
  }

  /** Pressing Record, when offered. */
  function PressRecord(s: Session, io: Backend.RecordingsIo, stamp: string, device: Recorder.Device): Session {
    if !AudioWorkflow.OffersRecord(s.ctrl) then s
    else
      var started := Backend.StartAudioRecording(s.rec, io, stamp, device);
      Session(AudioWorkflow.StartRecording(s.ctrl, started.status).controller, started.recorder, s.editor)
  }

  /** Pressing Record, when offered, against the recorder as written. */
  function PressRecordAsWritten(s: Session, io: Backend.RecordingsIo, stamp: string, device: Recorder.Device): Session {
    if !AudioWorkflow.OffersRecord(s.ctrl) then s
    else
      var started := Backend.StartAudioRecordingAsWritten(s.rec, io, stamp, device);
      Session(AudioWorkflow.StartRecording(s.ctrl, started.status).controller, started.recorder, s.editor)
  }

  /** Pressing Stop, when offered, through to the stop call settling and the
      transcript, if any, being merged into the editor. */
  function PressStop(s: Session, env: Recorder.TranscribeEnv): Session {
    if !AudioWorkflow.OffersStop(s.ctrl) then s
    else
      var answer := Backend.StopAudioRecording(s.rec, env);
      var settled := AudioWorkflow.StopAnswered(AudioWorkflow.StopRequested(s.ctrl), answer.text);
      var editor := if settled.delivered.Some? then Editor.HandleTranscription(s.editor, settled.delivered.value) else s.editor;
      Session(settled.controller, answer.recorder, editor)
  }

  /** Between user actions the controller's recording flag is the recorder's. */
  predicate InStep(s: Session) {
    && AudioWorkflow.Consistent(s.ctrl)
    && !s.ctrl.processing
    && s.ctrl.recording == s.rec.isRecording
    && Recorder.Coherent(s.rec)
  }

  /** At app start the recorder is new, so the first controller mounted is in step. */
  lemma MountedInStep(note: Note)
    ensures InStep(Session(AudioWorkflow.Mount(), Recorder.New(), Editor.Mount(note)))
  {
  }

  /** A freshly mounted controller is in step with a recorder exactly when that
      recorder is idle and holds no file. */
  lemma MountInStepExactlyWhenIdle(rec: Recorder.Recorder, note: Note)
    ensures InStep(Session(AudioWorkflow.Mount(), rec, Editor.Mount(note))) <==> !rec.isRecording && rec.recordedFile.None?
  {
  }

  /** The editor, and the recorder controls inside it, exist only while a note
      is selected. When the selection is cleared (by deleting the shown note)
      and another note is then selected, a new controller mounts over the
      process-wide recorder, which nothing has stopped. */
  function Remounted(s: Session, note: Note): Session {
    Session(AudioWorkflow.Mount(), s.rec, Editor.Mount(note))
  }

  /** The repaired unmount: a cleanup that calls `stop_audio_recording` and
      drops its answer, so the next controller mounts over an idle recorder. */
  function RemountedStopping(s: Session, note: Note, env: Recorder.TranscribeEnv): Session {
    Session(AudioWorkflow.Mount(), Backend.StopAudioRecording(s.rec, env).recorder, Editor.Mount(note))
  }

  /** As written, unmounting the editor during a recording strands the next
      one: once its model is prepared it offers Record and never Stop, Record
      fails with "Already recording" and changes nothing, and the recording
      runs on. */
  lemma RemountWhileRecordingStrands(s: Session, note: Note, ready: Status, io: Backend.RecordingsIo, stamp: string,
                                     device: Recorder.Device, env: Recorder.TranscribeEnv)
    requires InStep(s) && s.rec.isRecording
    ensures var m := ModelPrepared(Remounted(s, note), ready);
            && !InStep(m)
            && !AudioWorkflow.OffersStop(m.ctrl)
            && (ready.Ok? ==> AudioWorkflow.OffersRecord(m.ctrl))
            && m.rec == s.rec
            && PressRecord(m, io, stamp, device) == m
            && PressRecordAsWritten(m, io, stamp, device) == m
            && PressStop(m, env) == m
  {
  }

  /** With the stopping cleanup, every later mount is in step, whatever the
      session being unmounted was doing. */
  lemma RemountStoppingInStep(s: Session, note: Note, env: Recorder.TranscribeEnv)
    ensures InStep(RemountedStopping(s, note, env))
    ensures RemountedStopping(s, note, env).rec == Recorder.New()
  {
  }

  /** While one controller stays mounted, and with the repaired recorder start,
      every action keeps it in step with the recorder, so Stop is offered
      exactly while the recorder is recording. The start as written keeps them
      in step too, except when the capture thread fails to signal. */
  lemma ActionsKeepInStep(s: Session, ready: Status, io: Backend.RecordingsIo, stamp: string,
                          device: Recorder.Device, env: Recorder.TranscribeEnv)
    requires InStep(s)
    ensures InStep(ModelPrepared(s, ready))
    ensures InStep(PressRecord(s, io, stamp, device))
    ensures InStep(PressStop(s, env))
    ensures AudioWorkflow.OffersStop(s.ctrl) <==> s.rec.isRecording
    ensures !device.ThreadFailed? ==> InStep(PressRecordAsWritten(s, io, stamp, device))
  {
  }

  /** A stop changes the note's content only when transcription succeeds, and
      then by merging the transcript in. */
  lemma StopMergesOnlyOnSuccess(s: Session, env: Recorder.TranscribeEnv)
    requires InStep(s) && AudioWorkflow.OffersStop(s.ctrl)
    ensures var r := PressStop(s, env);
            var text := Recorder.TranscribeAudio(s.rec.recordedFile.value, env);
            && (text.Ok? ==> r.editor.content == Editor.MergeTranscript(s.editor.content, text.value) && r.editor.isEditing)
            && (text.Err? ==> r.editor == s.editor)
            && !r.ctrl.recording && !r.ctrl.processing && r.rec == Recorder.New()
  {
  }

  /** With the repaired recorder a failed start leaves Record offered over an
      idle recorder, so the next start can succeed. */
  lemma FailedStartRecovers(s: Session, io: Backend.RecordingsIo, stamp: string, device: Recorder.Device,
                            io2: Backend.RecordingsIo, stamp2: string)
    requires InStep(s) && AudioWorkflow.OffersRecord(s.ctrl)
    requires !PressRecord(s, io, stamp, device).ctrl.recording
    requires io2.dataDirFound && io2.makeRecordingsDir.Ok?
    ensures var failed := PressRecord(s, io, stamp, device);
            && AudioWorkflow.OffersRecord(failed.ctrl)
            && PressRecord(failed, io2, stamp2, Recorder.StreamReady).ctrl.recording
  {
  }

  /** The recorder is flagged as recording with no file while the controller
      shows Record: the state a failed handshake leaves in the code as written. */
  predicate Stranded(s: Session) {
    && s.ctrl == AudioWorkflow.Controller(false, true, false, false)
    && s.rec == Recorder.Recorder(true, None)
  }

  /** As written, a failed thread handshake strands the session: Stop is never
      offered again, and every later Record press fails and changes nothing. */
  lemma HandshakeFailureStrandsSession(s: Session, io: Backend.RecordingsIo, stamp: string,
                                       io2: Backend.RecordingsIo, stamp2: string, device: Recorder.Device,
                                       env: Recorder.TranscribeEnv)
    requires InStep(s) && AudioWorkflow.OffersRecord(s.ctrl)
    requires io.dataDirFound && io.makeRecordingsDir.Ok?
    ensures var failed := PressRecordAsWritten(s, io, stamp, Recorder.ThreadFailed);
            && Stranded(failed)
            && !AudioWorkflow.OffersStop(failed.ctrl)
            && PressRecordAsWritten(failed, io2, stamp2, device) == failed
            && PressStop(failed, env) == failed
  {
  }
}

=== FILE: audio_workflow.dfy ===
/** The recording controller of the note editor
    (app/src/components/AudioRecorder.tsx): four flags, the handlers that move
    them around a backend call, and the controls each combination renders.
    Each backend call is split into the intent and the outcome it settles with,
    passed in as a parameter. */
module AudioWorkflow {
  import opened Outcomes

  datatype Controller = Controller(preparing: bool, modelReady: bool, recording: bool, processing: bool)

  /** The flags a freshly mounted controller starts with. */
  function Mount(): (c: Controller)
    ensures c.preparing && !c.modelReady && !c.recording && !c.processing
  {
    Controller(true, false, false, false)
  }

  /** The mount effect settling: `ready` is the outcome of `ensure_model_ready`.
      Success marks the model ready; whatever happens, preparation is over. */
  function PrepareModel(c: Controller, ready: Status): (r: Controller)
    ensures !r.preparing
    ensures r.modelReady <==> c.modelReady || ready.Ok?
    ensures r.recording == c.recording && r.processing == c.processing
  {
    c.(modelReady := c.modelReady || ready.Ok?, preparing := false)
  }

  /** A handler's new flags and whether it called the backend. */
  datatype Started = Started(controller: Controller, called: bool)

  /** `startRecording`: `started` is the outcome of `start_audio_recording`, consulted
      only when the handler gets as far as calling it. */
  function StartRecording(c: Controller, started: Status): (r: Started)
    ensures !c.modelReady ==> !r.called && r.controller == c
    ensures c.modelReady ==> r.called
    ensures c.modelReady && started.Ok? ==> r.controller.recording
    ensures started.Err? ==> r.controller == c
    ensures r.controller.(recording := c.recording) == c
  {
    if !c.modelReady then Started(c, false)
    else if started.Ok? then Started(c.(recording := true), true)
    else Started(c, true)
  }

  /** What `stopRecording` does before awaiting `stop_audio_recording`. */
  function StopRequested(c: Controller): (r: Controller)
    ensures !r.recording && r.processing
    ensures r.preparing == c.preparing && r.modelReady == c.modelReady
  {
    c.(recording := false, processing := true)
  }

  /** The flags once the stop call has settled, and the text handed to the
      transcript callback (at most once). */
  datatype Settled = Settled(controller: Controller, delivered: Option<string>)

  /** `stopRecording` resuming: `transcribed` is the outcome of `stop_audio_recording`. */
  function StopAnswered(c: Controller, transcribed: Result<string>): (r: Settled)
    ensures !r.controller.processing
    ensures r.controller.(processing := c.processing) == c
    ensures transcribed.Ok? ==> r.delivered == Some(transcribed.value)
    ensures transcribed.Err? ==> r.delivered == None
  {
    var after := c.(processing := false);
    match transcribed
    case Ok(text) => Settled(after, Some(text))
    case Err(_) => Settled(after, None)
  }

  /** The whole `stopRecording` handler: it neither checks readiness nor that a
      recording is running. */
  function StopRecording(c: Controller, transcribed: Result<string>): (r: Settled)
    ensures !r.controller.recording && !r.controller.processing
    ensures r.controller.preparing == c.preparing && r.controller.modelReady == c.modelReady
    ensures transcribed.Ok? <==> r.delivered.Some?
    ensures transcribed.Ok? ==> r.delivered.value == transcribed.value
  {
    StopAnswered(StopRequested(c), transcribed)
  }

  /** What the component renders: a notice, or the row of controls. */
  datatype View =
    | PreparingNotice
    | UnavailableNotice
    | Controls(record: bool, stop: bool, processingNotice: bool)

  function Render(c: Controller): View {
    if c.preparing then PreparingNotice
    else if !c.modelReady then UnavailableNotice
    else Controls(!c.recording && !c.processing, c.recording, c.processing)
  }

  predicate OffersRecord(c: Controller) {
    Render(c).Controls? && Render(c).record
  }

  predicate OffersStop(c: Controller) {
    Render(c).Controls? && Render(c).stop
  }

  /** Record is offered exactly when the model is ready and nothing runs; Stop
      exactly when ready and recording; nothing while preparing or unavailable. */
  lemma Gating(c: Controller)
    ensures OffersRecord(c) <==> !c.preparing && c.modelReady && !c.recording && !c.processing
    ensures OffersStop(c) <==> !c.preparing && c.modelReady && c.recording
    ensures c.preparing || !c.modelReady ==> !OffersRecord(c) && !OffersStop(c)
  {
  }

  /** Something that can happen to a mounted controller: the mount effect's call
      settles, the user presses a rendered control, or a pending stop settles. */
  datatype Event =
    | ModelPrepared(ready: Status)
    | PressRecord(started: Status)
    | PressStop
    | StopSettles(transcribed: Result<string>)

  /** Whether `e` can happen now: the effect settles once, only offered controls
      can be pressed, and only a pending stop can settle. */
  predicate Enabled(c: Controller, e: Event) {
    match e
    case ModelPrepared(_) => c.preparing
    case PressRecord(_) => OffersRecord(c)
    case PressStop => OffersStop(c)
    case StopSettles(_) => c.processing
  }

  function Next(c: Controller, e: Event): Controller {
    if !Enabled(c, e) then c
    else match e
      case ModelPrepared(ready) => PrepareModel(c, ready)
      case PressRecord(started) => StartRecording(c, started).controller
      case PressStop => StopRequested(c)
      case StopSettles(transcribed) => StopAnswered(c, transcribed).controller
  }

  function Run(c: Controller, events: seq<Event>): Controller
    decreases |events|
  {
    if |events| == 0 then c else Run(Next(c, events[0]), events[1..])
  }

  /** The flag combinations a mounted controller can be in: preparing excludes
      everything else, recording and processing exclude each other, and either
      needs a ready model. */
  predicate Consistent(c: Controller) {
    && (c.preparing ==> !c.modelReady && !c.recording && !c.processing)
    && !(c.recording && c.processing)
    && (c.recording || c.processing ==> c.modelReady)
  }

  lemma NextConsistent(c: Controller, e: Event)
    requires Consistent(c)
    ensures Consistent(Next(c, e))
  {
  }

  /** Every flag combination reachable from mounting is consistent. */
  lemma {:induction false} RunConsistent(c: Controller, events: seq<Event>)
    requires Consistent(c)
    ensures Consistent(Run(c, events))
    decreases |events|
  {
    if |events| > 0 {
      NextConsistent(c, events[0]);
      RunConsistent(Next(c, events[0]), events[1..]);
    }
  }

  lemma ReachableConsistent(events: seq<Event>)
    ensures Consistent(Run(Mount(), events))
  {
    RunConsistent(Mount(), events);
  }

  /** In a consistent controller Stop is offered exactly while recording, and no
      control at all while a stop is being processed. */
  lemma ConsistentGating(c: Controller)
    requires Consistent(c)
    ensures OffersStop(c) <==> c.recording
    ensures c.processing ==> !OffersRecord(c) && !OffersStop(c)
  {
  }

  /** Preparation is never retried: once it is over, no event changes readiness. */
  lemma {:induction false} PreparationNotRetried(c: Controller, events: seq<Event>)
    requires !c.preparing
    ensures !Run(c, events).preparing && Run(c, events).modelReady == c.modelReady
    decreases |events|
  {
    if |events| > 0 {
      PreparationNotRetried(Next(c, events[0]), events[1..]);
    }
  }

  /** A failed preparation is final: nothing can happen to the controller afterwards. */
  lemma {:induction false} UnavailableIsFinal(c: Controller, events: seq<Event>)
    requires Consistent(c) && !c.preparing && !c.modelReady
    ensures Run(c, events) == c
    decreases |events|
  {
    if |events| > 0 {
      UnavailableIsFinal(Next(c, events[0]), events[1..]);
    }
  }
}

=== FILE: backend.dfy ===
/** The Tauri commands (app/src-tauri/src/main.rs). The notes directory is a
    map from file name to entry; a note is stored in `{id}.json` holding its
    serialised form, and serialisation is taken to round-trip, so a readable
    file either parses to a note or does not parse. The app data directory
    lookup and each file-system step are replaced by their outcomes. Error texts
    are the code's message prefixes, followed by the underlying error's text
    where that text is a parameter here. */
module Backend {
  import opened Outcomes
  import opened Notes
  import opened Text
  import opened Seqs
  import opened TimestampOrder
  import Recorder

  const DataDirError := Recorder.DataDirError

  /** A directory entry's contents as `load_notes` reads them. */
  datatype Content = Parsed(note: Note) | Unparsable | Unreadable

  /** A directory entry: a regular file, or anything else (a sub-directory, say). */
  datatype Entry = RegularFile(content: Content) | NotAFile

  datatype NotesDir = Missing | Present(files: map<string, Entry>)

  function Files(d: NotesDir): map<string, Entry> {
    if d.Present? then d.files else map[]
  }

  /** `format!("{}.json", id)`. */
  function NoteFileName(id: int): string {
    IntToString(id) + ".json"
  }

  /** Distinct ids are stored in distinct files. */
  lemma NoteFileNameInjective(a: int, b: int)
    requires NoteFileName(a) == NoteFileName(b)
    ensures a == b
  {
    var x, y := IntToString(a), IntToString(b);
    assert |x| == |y|;
    assert x == NoteFileName(a)[..|x|] && y == NoteFileName(b)[..|y|];
    IntToStringInjective(a, b);
  }

  /** The position of the last '.' in `name`, if any. */
  function LastDot(name: string): (r: Option<nat>)
    ensures r.Some? ==> r.value < |name| && name[r.value] == '.'
    ensures r.Some? ==> forall k :: r.value < k < |name| ==> name[k] != '.'
    ensures r.None? ==> forall k :: 0 <= k < |name| ==> name[k] != '.'
  {
    if |name| == 0 then None
    else if name[|name| - 1] == '.' then Some(|name| - 1)
    else LastDot(name[..|name| - 1])
  }

  /** Rust's `Path::extension` of a file name: what follows the last '.', unless
      that '.' is the name's first character or there is none. */
  function Extension(name: string): Option<string> {
    match LastDot(name)
    case None => None
    case Some(i) => if i == 0 then None else Some(name[i + 1..])
  }

  predicate IsJsonName(name: string) {
    Extension(name) == Some("json")
  }

  /** Every note's file is one `load_notes` reads. */
  lemma NoteFileIsJson(id: int)
    ensures IsJsonName(NoteFileName(id))
  {
    var name := NoteFileName(id);
    var digits := IntToString(id);
    assert name[|digits|] == '.';
    assert forall k :: |digits| < k < |name| ==> name[k] != '.';
    assert forall k :: 0 <= k < |digits| ==> name[k] == digits[k];
    assert name[|digits| + 1..] == "json";
  }

  /** How `fs::write` ends: written, not opened, or opened (and so truncated)
      but not written in full. */
  datatype WriteOutcome = Written | OpenFailed(cause: string) | InterruptedWrite(cause: string)

  datatype SaveIo = SaveIo(dataDirFound: bool, makeAppDir: Status, makeNotesDir: Status, write: WriteOutcome)

  /** The directory a command leaves and its answer. */
  datatype Changed = Changed(dir: NotesDir, status: Status)

  /** `save_note`: writes the note to `{id}.json`, creating the directories first. */
  function SaveNote(d: NotesDir, note: Note, io: SaveIo): (r: Changed)
    ensures r.status.Ok? <==> io.dataDirFound && io.makeAppDir.Ok? && io.makeNotesDir.Ok? && io.write.Written?
    ensures r.status.Ok? ==> r.dir == Present(Files(d)[NoteFileName(note.id) := RegularFile(Parsed(note))])
    ensures r.status.Err? && !io.write.InterruptedWrite? ==> Files(r.dir) == Files(d)
    ensures r.dir == d || r.dir.Present?
    ensures forall f :: f != NoteFileName(note.id) ==>
              (f in Files(r.dir) <==> f in Files(d)) && (f in Files(d) ==> Files(r.dir)[f] == Files(d)[f])
  {
    var name := NoteFileName(note.id);
    if !io.dataDirFound then Changed(d, Err(DataDirError))
    else if io.makeAppDir.Err? then Changed(d, Err("Failed to create app directory: " + io.makeAppDir.error))
    else if io.makeNotesDir.Err? then Changed(d, Err("Failed to create notes directory: " + io.makeNotesDir.error))
    else match io.write
      case Written => Changed(Present(Files(d)[name := RegularFile(Parsed(note))]), Done)
      case OpenFailed(e) => Changed(Present(Files(d)), Err("Failed to write note to file: " + e))
      case InterruptedWrite(e) =>
        Changed(Present(Files(d)[name := RegularFile(Unparsable)]), Err("Failed to write note to file: " + e))
  }

  /** Saving is an upsert: a second successful save of the same id replaces the
      first, as if only the second had happened. */
  lemma SaveIsUpsert(d: NotesDir, first: Note, second: Note, io1: SaveIo, io2: SaveIo)
    requires first.id == second.id
    requires SaveNote(d, first, io1).status.Ok? && io2.dataDirFound && io2.makeAppDir.Ok? && io2.makeNotesDir.Ok? && io2.write.Written?
    ensures SaveNote(SaveNote(d, first, io1).dir, second, io2) == SaveNote(d, second, io2)
  {
  }

  datatype DeleteIo = DeleteIo(dataDirFound: bool, remove: Status)

  /** `delete_note`: removes `{id}.json` if it exists; a missing file is not an error. */
  function DeleteNote(d: NotesDir, id: int, io: DeleteIo): (r: Changed)
    ensures r.status.Err? <==> !io.dataDirFound || (NoteFileName(id) in Files(d) && io.remove.Err?)
    ensures r.status.Err? ==> r.dir == d
    ensures r.status.Ok? ==> Files(r.dir) == Files(d) - {NoteFileName(id)} && r.dir.Present? == d.Present?
    ensures io.dataDirFound && NoteFileName(id) !in Files(d) ==> r == Changed(d, Done)
  {
    var name := NoteFileName(id);
    if !io.dataDirFound then Changed(d, Err(DataDirError))
    else if name !in Files(d) then Changed(d, Done)
    else if io.remove.Err? then Changed(d, Err("Failed to delete note: " + io.remove.error))
    else Changed(Present(Files(d) - {name}), Done)
  }

  /** Deleting is idempotent: after a successful delete, deleting the same id
      again succeeds and changes nothing, whatever removing a file would do. */
  lemma DeleteIdempotent(d: NotesDir, id: int, io1: DeleteIo, io2: DeleteIo)
    requires DeleteNote(d, id, io1).status.Ok? && io2.dataDirFound
    ensures var once := DeleteNote(d, id, io1);
            DeleteNote(once.dir, id, io2) == Changed(once.dir, Done)
  {
  }

  /** `listing` is the order `read_dir` yields the directory's entries in: each name once. */
  predicate Lists(d: NotesDir, listing: seq<string>) {
    && (forall i, j :: 0 <= i < j < |listing| ==> listing[i] != listing[j])
    && (forall i :: 0 <= i < |listing| ==> listing[i] in Files(d))
    && (forall f :: f in Files(d) ==> f in listing)
  }

  /** An entry `load_notes` reads: a regular file with the `json` extension. */
  predicate IsNoteFile(files: map<string, Entry>, name: string) {
    name in files && IsJsonName(name) && files[name].RegularFile?
  }

  function NoteFileIn(files: map<string, Entry>): string -> bool {
    name => IsNoteFile(files, name)
  }

  /** A note file that cannot be read or parsed. */
  predicate IsBroken(files: map<string, Entry>, name: string) {
    IsNoteFile(files, name) && !files[name].content.Parsed?
  }

  function ReadError(c: Content): string {
    if c.Unreadable? then "Failed to read note file" else "Failed to parse note"
  }

  /** The reading loop: the note files of `listing`, in listing order, stopping
      at the first that cannot be read or parsed. */
  function ReadNotes(listing: seq<string>, files: map<string, Entry>): (r: Result<seq<Note>>)
    requires forall f :: f in listing ==> f in files
    ensures r.Ok? <==> forall i :: 0 <= i < |listing| ==> !IsBroken(files, listing[i])
    ensures r.Ok? ==> |r.value| == |Filter(listing, NoteFileIn(files))|
    ensures r.Ok? ==> forall k :: 0 <= k < |r.value| ==>
              files[Filter(listing, NoteFileIn(files))[k]] == RegularFile(Parsed(r.value[k]))
    ensures r.Err? ==> exists i :: (0 <= i < |listing| && IsBroken(files, listing[i])
                                    && (forall j :: 0 <= j < i ==> !IsBroken(files, listing[j]))
                                    && r.error == ReadError(files[listing[i]].content))
  {
    if |listing| == 0 then Ok([])
    else
      var name := listing[0];
      assert forall i :: 1 <= i < |listing| ==> listing[i] == listing[1..][i - 1];
      var rest := ReadNotes(listing[1..], files);
      if !IsNoteFile(files, name) then rest
      else match files[name].content
        case Unreadable => Err(ReadError(Unreadable))
        case Unparsable => Err(ReadError(Unparsable))
        case Parsed(note) =>
          match rest
          case Err(e) => Err(e)
          case Ok(notes) =>
            ReadNoteFirst(listing, files, note, notes);
            Ok([note] + notes)
  }

  /** A parsed first note file heads the notes read from the rest. */
  lemma ReadNoteFirst(listing: seq<string>, files: map<string, Entry>, note: Note, notes: seq<Note>)
    requires |listing| > 0 && IsNoteFile(files, listing[0]) && files[listing[0]].content == Parsed(note)
    requires forall f :: f in listing ==> f in files
    requires |notes| == |Filter(listing[1..], NoteFileIn(files))|
    requires forall k :: 0 <= k < |notes| ==>
               files[Filter(listing[1..], NoteFileIn(files))[k]] == RegularFile(Parsed(notes[k]))
    ensures |[note] + notes| == |Filter(listing, NoteFileIn(files))|
    ensures forall k :: 0 <= k < |[note] + notes| ==>
              files[Filter(listing, NoteFileIn(files))[k]] == RegularFile(Parsed(([note] + notes)[k]))
  {
    var rest := Filter(listing[1..], NoteFileIn(files));
    assert NoteFileIn(files)(listing[0]);
    assert Filter(listing, NoteFileIn(files)) == [listing[0]] + rest;
    forall k | 0 <= k < |[note] + notes|
      ensures files[Filter(listing, NoteFileIn(files))[k]] == RegularFile(Parsed(([note] + notes)[k]))
    {
      if k > 0 {
        assert Filter(listing, NoteFileIn(files))[k] == rest[k - 1];
      }
    }
  }

  datatype LoadIo = LoadIo(dataDirFound: bool, makeNotesDir: Status, readDir: Status)

  /** What `load_notes` leaves (it creates a missing directory) and returns. */
  datatype Loaded = Loaded(dir: NotesDir, notes: Result<seq<Note>>)

  /** The sort is ordered and stable for every timestamp at once. */
  lemma SortIsOrderedAndStable(s: seq<Note>)
    ensures NewestFirst(SortNewestFirst(s))
    ensures forall t :: Filter(SortNewestFirst(s), StampedAt(t)) == Filter(s, StampedAt(t))
  {
    SortIsOrdered(s);
    forall t {
      SortIsStable(s, t);
    }
  }

  /** `load_notes`: a missing directory is created and yields no notes; otherwise
      every note file is read, any unreadable or unparsable one failing the whole
      load, and the notes come back newest first, equal timestamps in reading order. */
  function LoadNotes(d: NotesDir, listing: seq<string>, io: LoadIo): (r: Loaded)
    requires Lists(d, listing)
    ensures !io.dataDirFound ==> r == Loaded(d, Err(DataDirError))
    ensures io.dataDirFound && d.Missing? && io.makeNotesDir.Ok? ==> r == Loaded(Present(map[]), Ok([]))
    ensures io.dataDirFound && d.Missing? && io.makeNotesDir.Err? ==>
              r == Loaded(d, Err("Failed to create notes directory: " + io.makeNotesDir.error))
    ensures r.dir == d || (d.Missing? && io.dataDirFound && io.makeNotesDir.Ok? && r.dir == Present(map[]))
    ensures io.dataDirFound && d.Present? && io.readDir.Err? ==>
              r.notes == Err("Failed to read notes directory: " + io.readDir.error)
    ensures io.dataDirFound && d.Present? && io.readDir.Ok? && ReadNotes(listing, d.files).Err? ==>
              r.notes == ReadNotes(listing, d.files)
    ensures d.Present? ==>
              (r.notes.Ok? <==> io.dataDirFound && io.readDir.Ok? && ReadNotes(listing, d.files).Ok?)
    ensures d.Present? && r.notes.Ok? ==>
              var read := ReadNotes(listing, d.files).value;
              && NewestFirst(r.notes.value)
              && multiset(r.notes.value) == multiset(read)
              && forall t :: Filter(r.notes.value, StampedAt(t)) == Filter(read, StampedAt(t))
  {
    if !io.dataDirFound then Loaded(d, Err(DataDirError))
    else match d
      case Missing =>
        if io.makeNotesDir.Err? then Loaded(d, Err("Failed to create notes directory: " + io.makeNotesDir.error))
        else Loaded(Present(map[]), Ok([]))
      case Present(files) =>
        if io.readDir.Err? then Loaded(d, Err("Failed to read notes directory: " + io.readDir.error))
        else match ReadNotes(listing, files)
          case Err(e) => Loaded(d, Err(e))
          case Ok(notes) =>
            SortIsOrderedAndStable(notes);
            Loaded(d, Ok(SortNewestFirst(notes)))
  }

  /** Every note a load returns is the contents of some regular file in the directory. */
  lemma LoadedNotesAreStored(d: NotesDir, listing: seq<string>, io: LoadIo)
    requires Lists(d, listing)
    ensures var r := LoadNotes(d, listing, io);
            r.notes.Ok? ==> forall n :: n in r.notes.value ==>
              exists f :: f in Files(d) && Files(d)[f] == RegularFile(Parsed(n))
  {
    var r := LoadNotes(d, listing, io);
    if r.notes.Ok? && d.Present? {
      var files := d.files;
      var read := ReadNotes(listing, files).value;
      var names := Filter(listing, NoteFileIn(files));
      forall n | n in r.notes.value
        ensures exists f :: f in Files(d) && Files(d)[f] == RegularFile(Parsed(n))
      {
        assert n in multiset(r.notes.value);
        assert n in read;
        var k :| 0 <= k < |read| && read[k] == n;
        assert names[k] in listing;
        assert files[names[k]] == RegularFile(Parsed(n));
      }
    }
  }

  datatype RecordingsIo = RecordingsIo(dataDirFound: bool, makeRecordingsDir: Status)

  /** Where `start_audio_recording` records to, relative to the app data directory. */
  function RecordingPath(stamp: string): Recorder.Path {
    "recordings/recording_" + stamp + ".wav"
  }

  /** The steps of `start_audio_recording` before the recorder is called: find
      the data directory, create the recordings directory, name the file after
      the local time `stamp` (formatted `%Y%m%d_%H%M%S`). */
  function RecordingTarget(io: RecordingsIo, stamp: string): (r: Result<Recorder.Path>)
    ensures r.Ok? <==> io.dataDirFound && io.makeRecordingsDir.Ok?
    ensures r.Ok? ==> r.value == RecordingPath(stamp)
  {
    if !io.dataDirFound then Err(DataDirError)
    else if io.makeRecordingsDir.Err? then Err("Failed to create recordings directory: " + io.makeRecordingsDir.error)
    else Ok(RecordingPath(stamp))
  }

  /** `start_audio_recording` as written: the recorder's own start, which leaves
      the recording flag set when the capture thread fails to signal. */
  function StartAudioRecordingAsWritten(rec: Recorder.Recorder, io: RecordingsIo, stamp: string, device: Recorder.Device): (r: Recorder.Started)
    ensures r.status.Ok? <==> io.dataDirFound && io.makeRecordingsDir.Ok? && !rec.isRecording && device.StreamReady?
    ensures r.status.Ok? ==> r.recorder == Recorder.Recorder(true, Some(RecordingPath(stamp)))
    ensures !(io.dataDirFound && io.makeRecordingsDir.Ok?) ==> r.recorder == rec
    ensures rec.isRecording ==> r.recorder == rec
    ensures r.status.Err? && r.recorder != rec ==>
              && io.dataDirFound && io.makeRecordingsDir.Ok? && device.ThreadFailed?
              && r.recorder == Recorder.Recorder(true, rec.recordedFile) && r.status == Err(Recorder.ThreadError)
  {
    match RecordingTarget(io, stamp)
    case Err(e) => Recorder.Started(rec, Err(e))
    case Ok(path) => Recorder.StartRecordingAsWritten(rec, path, device)
  }

  /** `start_audio_recording` with the recorder's start repaired as in
      `Recorder.StartRecording`: a failed start changes nothing. */
  function StartAudioRecording(rec: Recorder.Recorder, io: RecordingsIo, stamp: string, device: Recorder.Device): (r: Recorder.Started)
    ensures r.status.Ok? <==> io.dataDirFound && io.makeRecordingsDir.Ok? && !rec.isRecording && device.StreamReady?
    ensures r.status.Ok? ==> r.recorder == Recorder.Recorder(true, Some(RecordingPath(stamp)))
    ensures r.status.Err? ==> r.recorder == rec
  {
    match RecordingTarget(io, stamp)
    case Err(e) => Recorder.Started(rec, Err(e))
    case Ok(path) => Recorder.StartRecording(rec, path, device)
  }

  /** The two differ only where the thread handshake fails on an idle recorder. */
  lemma StartsDifferOnlyOnHandshake(rec: Recorder.Recorder, io: RecordingsIo, stamp: string, device: Recorder.Device)
    ensures StartAudioRecordingAsWritten(rec, io, stamp, device) != StartAudioRecording(rec, io, stamp, device)
            <==> io.dataDirFound && io.makeRecordingsDir.Ok? && !rec.isRecording && device.ThreadFailed?
  {
  }

  datatype Transcribed = Transcribed(recorder: Recorder.Recorder, text: Result<string>)

  /** `stop_audio_recording`: stop, then transcribe the file the stop handed
      back; the first error is the answer. */
  function StopAudioRecording(rec: Recorder.Recorder, env: Recorder.TranscribeEnv): (r: Transcribed)
    ensures r.recorder == Recorder.New()
    ensures rec.recordedFile.None? ==> r.text == Err(Recorder.NoRecording)
    ensures rec.recordedFile.Some? ==> r.text == Recorder.TranscribeAudio(rec.recordedFile.value, env)
  {
    var stopped := Recorder.StopRecording(rec);
    match stopped.path
    case Err(e) => Transcribed(stopped.recorder, Err(e))
    case Ok(path) => Transcribed(stopped.recorder, Recorder.TranscribeAudio(path, env))
  }

  /** `ensure_model_ready` as written: find the data directory, then run the
      model check as written, which keeps whatever file a failed download leaves. */
  function EnsureModelReadyAsWritten(models: map<string, Recorder.ModelFile>, dataDirFound: bool, io: Recorder.DownloadIo): (r: Recorder.Ensured)
    ensures !dataDirFound ==> r == Recorder.Ensured(models, false, Err(DataDirError))
    ensures r.downloaded <==> dataDirFound && io.makeDir.Ok? && Recorder.ModelFileName !in models
    ensures r.path.Ok? ==> Recorder.ModelFileName in r.models
    ensures forall f :: f != Recorder.ModelFileName ==> (f in r.models <==> f in models)
    ensures (dataDirFound && io.makeDir.Ok? && Recorder.ModelFileName !in models && io.download.Received?
             && io.create.Ok? && io.write.Err?)
            ==> r.path.Err? && Recorder.ModelFileName in r.models && r.models[Recorder.ModelFileName] == Recorder.Corrupt
  {
    if !dataDirFound then Recorder.Ensured(models, false, Err(DataDirError))
    else Recorder.EnsureModelExistsAsWritten(models, io)
  }

  /** `ensure_model_ready` with the repaired model check. */
  function EnsureModelReady(models: map<string, Recorder.ModelFile>, dataDirFound: bool, io: Recorder.DownloadIo): (r: Recorder.Ensured)
    ensures !dataDirFound ==> r == Recorder.Ensured(models, false, Err(DataDirError))
    ensures r.downloaded <==> dataDirFound && io.makeDir.Ok? && Recorder.ModelFileName !in models
    ensures r.path.Err? ==> r.models == models
    ensures Recorder.NoCorruptModel(models) ==> Recorder.NoCorruptModel(r.models)
  {
    if !dataDirFound then Recorder.Ensured(models, false, Err(DataDirError))
    else Recorder.EnsureModelExists(models, io)
  }

  /** The arguments of `save_note` as serde reads them into a `Note`: the id must
      be an integer that fits in an `i64`, the other fields strings; anything
      else is refused before the command runs. */
  function DecodeNote(fields: NoteFields): (r: Result<Note>)
    ensures r.Ok? <==> fields.id.Number? && -0x8000_0000_0000_0000 <= fields.id.n < 0x8000_0000_0000_0000
                       && fields.title.Str? && fields.content.Str? && fields.timestamp.Str?
    ensures r.Ok? ==> r.value == Note(fields.id.n, fields.title.s, fields.content.s, fields.timestamp.s)
  {
    match fields
    case NoteFields(Number(id), Str(title), Str(content), Str(stamp)) =>
      if -0x8000_0000_0000_0000 <= id < 0x8000_0000_0000_0000 then Ok(Note(id, title, content, stamp))
      else Err("invalid args `note` for command `save_note`")
    case _ => Err("invalid args `note` for command `save_note`")
  }
}

=== FILE: editor.dfy ===
/** The note editor's own state (app/src/components/NoteEditor.tsx): the title
    and content being edited and the edit-mode flag, and how transcripts are
    merged into the content. */
module Editor {
  import opened Notes
  import opened Text

  datatype EditorState = EditorState(title: string, content: string, isEditing: bool)

  /** Titles starting with this open in edit mode. The sidebar titles new notes
      "Note " and the creation time in the user's locale, so whether they start
      with it depends on that locale's date format (year first, as in
      "Note 2025-03-14 …", does; "Note 3/14/2025, …" does not). */
  const FreshTitlePrefix := "Note 2"

  /** What separates a merged transcript from the existing content. */
  const ParagraphBreak := "\n\n"

  /** The effect run whenever the shown note changes: the fields reset to the
      note's, and edit mode is switched on for fresh titles and otherwise left alone. */
  function NoteChanged(e: EditorState, note: Note): (r: EditorState)
    ensures r.title == note.title && r.content == note.content
    ensures StartsWith(note.title, FreshTitlePrefix) ==> r.isEditing
    ensures !StartsWith(note.title, FreshTitlePrefix) ==> r.isEditing == e.isEditing
  {
    EditorState(note.title, note.content, e.isEditing || StartsWith(note.title, FreshTitlePrefix))
  }

  /** Re-running the effect for the note it has just shown changes nothing more. */
  lemma NoteChangedIdempotent(e: EditorState, note: Note)
    ensures NoteChanged(NoteChanged(e, note), note) == NoteChanged(e, note)
  {
  }

  /** Whatever was being edited, the effect discards it: the result depends only
      on the note and on whether editing was already on. */
  lemma NoteChangedDiscardsEdits(e1: EditorState, e2: EditorState, note: Note)
    requires e1.isEditing == e2.isEditing
    ensures NoteChanged(e1, note) == NoteChanged(e2, note)
  {
  }

  /** The effect keyed on the shown note's id rather than on the note object:
      it runs only when a note with another id is shown. */
  function NoteSwitched(e: EditorState, shown: Note, next: Note): (r: EditorState)
    ensures next.id != shown.id ==> r.title == next.title && r.content == next.content
    ensures next.id != shown.id && StartsWith(next.title, FreshTitlePrefix) ==> r.isEditing
    ensures next.id != shown.id && !StartsWith(next.title, FreshTitlePrefix) ==> r.isEditing == e.isEditing
    ensures next.id == shown.id ==> r == e
  {
    if next.id == shown.id then e else NoteChanged(e, next)
  }

  /** A newly mounted editor: the state hooks start from the note with editing
      off, then the effect runs once. */
  function Mount(note: Note): (r: EditorState)
    ensures r.title == note.title && r.content == note.content
    ensures r.isEditing <==> StartsWith(note.title, FreshTitlePrefix)
  {
    NoteChanged(EditorState(note.title, note.content, false), note)
  }

  /** `content ? content + "\n\n" + transcript : transcript`: the transcript
      becomes the content of an empty note, and otherwise follows the existing
      content after a blank line, which is kept intact. */
  function MergeTranscript(content: string, transcript: string): (r: string)
    ensures content == "" ==> r == transcript
    ensures content != "" ==> |r| == |content| + |ParagraphBreak| + |transcript|
    ensures content != "" ==> r[..|content|] == content
    ensures content != "" ==> r[|content|..|content| + |ParagraphBreak|] == ParagraphBreak
    ensures r[|r| - |transcript|..] == transcript
  {
    if content == "" then transcript else content + ParagraphBreak + transcript
  }

  /** Nothing is lost in a merge: the transcript can be told apart again. */
  lemma MergeInjective(content: string, t1: string, t2: string)
    requires MergeTranscript(content, t1) == MergeTranscript(content, t2)
    ensures t1 == t2
  {
    var r := MergeTranscript(content, t1);
    assert |t1| == |t2|;
    assert t1 == r[|r| - |t1|..];
  }

  /** Two transcripts merged one after the other give what merging their own
      merge once would, unless the first transcript was empty and the content was not. */
  lemma MergeTwice(content: string, a: string, b: string)
    requires content == "" || a != ""
    ensures MergeTranscript(MergeTranscript(content, a), b) == MergeTranscript(content, MergeTranscript(a, b))
  {
    if content != "" {
      if b == "" {
        assert MergeTranscript(content, a) + ParagraphBreak + b == content + ParagraphBreak + (a + ParagraphBreak + b);
      } else {
        assert content + ParagraphBreak + a + ParagraphBreak + b == content + ParagraphBreak + (a + ParagraphBreak + b);
      }
    }
  }

  /** `handleTranscription`: the transcript is merged in and edit mode is on. */
  function HandleTranscription(e: EditorState, transcript: string): (r: EditorState)
    ensures r.content == MergeTranscript(e.content, transcript)
    ensures r.isEditing && r.title == e.title
  {
    EditorState(e.title, MergeTranscript(e.content, transcript), true)
  }

  /** The pencil control flips edit mode and touches nothing else. */
  function TogglePressed(e: EditorState): (r: EditorState)
    ensures r.isEditing != e.isEditing
    ensures r.title == e.title && r.content == e.content
  {
    e.(isEditing := !e.isEditing)
  }

  /** Pressing the pencil twice restores the editor. */
  lemma ToggleTwiceRestores(e: EditorState)
    ensures TogglePressed(TogglePressed(e)) == e
  {
  }

  /** The arguments a save hands to the store's `updateNote(id, title, content)`. */
  datatype UpdateArguments = UpdateArguments(id: Field, title: Field, content: Field)

  datatype Saved = Saved(editor: EditorState, call: UpdateArguments)

  /** `handleSave` as written: it passes one object, the shown note spread with
      the edited title and content and a new timestamp, so `updateNote` receives
      that object as its id and `undefined` as title and content. */
  function HandleSaveAsWritten(e: EditorState, note: Note, stamp: string): (r: Saved)
    ensures !r.editor.isEditing && r.editor.title == e.title && r.editor.content == e.content
    ensures r.call.id == Object(Note(note.id, e.title, e.content, stamp))
    ensures r.call.title.Undefined? && r.call.content.Undefined?
  {
    Saved(e.(isEditing := false),
          UpdateArguments(Object(Note(note.id, e.title, e.content, stamp)), Undefined, Undefined))
  }

  /** `handleSave` as the store's signature needs it: the shown note's id with
      the edited title and content. */
  function HandleSave(e: EditorState, note: Note): (r: Saved)
    ensures !r.editor.isEditing && r.editor.title == e.title && r.editor.content == e.content
    ensures r.call == UpdateArguments(Number(note.id), Str(e.title), Str(e.content))
  {
    Saved(e.(isEditing := false), UpdateArguments(Number(note.id), Str(e.title), Str(e.content)))
  }
}

=== FILE: model_script.dfy ===
/** The file the standalone download script (app/scripts/download-model.js)
    installs in the models directory, set against the file the backend checks
    for. Only the file name and the existence check are modelled; the script's
    download is taken to succeed. */
module ModelScript {
  import opened Outcomes
  import opened Recorder

  /** The name the script gives the model file. */
  const ScriptFileNameAsWritten := "ggml-base.en.bin"

  /** The script as written: unless its file is already there, it downloads the model into it. */
  function RunScriptAsWritten(models: map<string, ModelFile>): (r: map<string, ModelFile>)
    ensures ScriptFileNameAsWritten in r
    ensures forall f :: f != ScriptFileNameAsWritten ==> (f in r <==> f in models)
    ensures forall f :: f in models ==> f in r && r[f] == models[f]
  {
    if ScriptFileNameAsWritten in models then models else models[ScriptFileNameAsWritten := Usable]
  }

  /** The script installing the file under the name the backend checks for. */
  function RunScript(models: map<string, ModelFile>): (r: map<string, ModelFile>)
    ensures ModelFileName in r
    ensures forall f :: f != ModelFileName ==> (f in r <==> f in models)
    ensures ModelFileName !in models ==> r[ModelFileName] == Usable
  {
    if ModelFileName in models then models else models[ModelFileName := Usable]
  }

  /** The model file the backend finds in `models`, if any. */
  function ModelIn(models: map<string, ModelFile>): Option<ModelFile> {
    if ModelFileName in models then Some(models[ModelFileName]) else None
  }

  /** Running the script as written, as the backend's own error message advises,
      does not install the model: transcription still reports it missing, and
      preparing the model still downloads it. */
  lemma ScriptAsWrittenMissesModel(models: map<string, ModelFile>, io: DownloadIo, path: Path, recordings: map<Path, Wav>)
    requires ModelFileName !in models
    requires io.makeDir.Ok?
    ensures var after := RunScriptAsWritten(models);
            && TranscribeAudio(path, TranscribeEnv(true, ModelIn(after), recordings)) == Err(ModelMissing)
            && EnsureModelExists(after, io).downloaded
  {
  }

  /** Running the repaired script installs a model the backend accepts without downloading. */
  lemma ScriptInstallsModel(models: map<string, ModelFile>, io: DownloadIo)
    requires NoCorruptModel(models)
    requires io.makeDir.Ok?
    ensures var after := RunScript(models);
            && ModelIn(after) == Some(Usable)
            && EnsureModelExists(after, io) == Ensured(after, false, Ok(ModelPath))
  {
  }
}

=== FILE: notes.dfy ===
/** The note record both sides of the bridge exchange: the TypeScript `Note`
    type and the Rust `Note` struct (app/src-tauri/src/main.rs) carry the same
    four fields. Ids are unbounded integers here; `timestamp` is the ISO-8601
    text the client writes. */
module Notes {

  datatype Note = Note(id: int, title: string, content: string, timestamp: string)

  /** The ids of `notes`, in order. */
  function Ids(notes: seq<Note>): (r: seq<int>)
    ensures |r| == |notes|
    ensures forall i :: 0 <= i < |r| ==> r[i] == notes[i].id
  {
    if |notes| == 0 then [] else [notes[0].id] + Ids(notes[1..])
  }

  /** The condition "has an id other than `id`" that deleting `id` filters by. */
  function OtherId(id: int): Note -> bool {
    (n: Note) => n.id != id
  }

  /** A value the client puts into a note field before it crosses the bridge:
      a JavaScript number, a string, an object holding a whole note, or
      `undefined` (which serialisation drops). */
  datatype Field = Number(n: int) | Str(s: string) | Object(note: Note) | Undefined

  /** The `note` object the client hands to `save_note`, field by field. */
  datatype NoteFields = NoteFields(id: Field, title: Field, content: Field, timestamp: Field)
}

=== FILE: outcomes.dfy ===
/** Success/failure values shared by every module of the model. */
module Outcomes {

  /** An optional value: TypeScript's `T | null` and Rust's `Option<T>`. */
  datatype Option<+T> = None | Some(value: T) {

    /** The value, or `default` when there is none (TypeScript's `??`). */
    function GetOr(default: T): T {
      match this
      case Some(v) => v
      case None => default
    }
  }

  /** The answer of a backend command or an awaited call: a value, or the error text it reports. */
  datatype Result<+T> = Ok(value: T) | Err(error: string)

  /** The answer of a command that returns nothing on success (Rust's `Result<(), String>`). */
  type Status = Result<()>

  const Done: Status := Ok(())
}

=== FILE: recorder.dfy ===
/** The Rust audio side (app/src-tauri/src/audio.rs): the recorder's flag and
    recorded-file slot as sequential state, the transcript assembly, and the
    model-file check. Devices, threads, WAV data, Whisper and the network are
    replaced by the outcome each step reaches, passed in as parameters. */
module Recorder {
  import opened Outcomes
  import opened Text

  type Path = string

  /** `is_recording` and the path in `recorded_file`. */
  datatype Recorder = Recorder(isRecording: bool, recordedFile: Option<Path>)

  /** `AudioRecorder::new`. */
  function New(): (r: Recorder)
    ensures !r.isRecording && r.recordedFile == None
  {
    Recorder(false, None)
  }

  const AlreadyRecording := "Already recording"
  const NoInputDeviceError := "No input device available"
  const ThreadError := "Failed to start recording thread"
  const NoRecording := "No recording in progress"

  /** How far `start_recording` gets once past its guard: no input device, the
      WAV file cannot be created, the capture thread dies before signalling
      (any of its `unwrap`s panicking), or the stream is running. */
  datatype Device = NoInputDevice | WavCreateFailed(cause: string) | ThreadFailed | StreamReady

  datatype Started = Started(recorder: Recorder, status: Status)

  /** `start_recording` as written: the flag is set before the thread handshake
      and is not cleared when the handshake fails. */
  function StartRecordingAsWritten(r: Recorder, output: Path, device: Device): (s: Started)
    ensures r.isRecording ==> s == Started(r, Err(AlreadyRecording))
    ensures !r.isRecording && (device.NoInputDevice? || device.WavCreateFailed?) ==> s.recorder == r && s.status.Err?
    ensures !r.isRecording && device.StreamReady? ==> s == Started(Recorder(true, Some(output)), Done)
    ensures !r.isRecording && device.ThreadFailed? ==> s == Started(Recorder(true, r.recordedFile), Err(ThreadError))
  {
    if r.isRecording then Started(r, Err(AlreadyRecording))
    else match device
      case NoInputDevice => Started(r, Err(NoInputDeviceError))
      case WavCreateFailed(e) => Started(r, Err("Failed to create WAV file: " + e))
      case ThreadFailed => Started(r.(isRecording := true), Err(ThreadError))
      case StreamReady => Started(Recorder(true, Some(output)), Done)
  }

  /** `start_recording` with the flag cleared again when the handshake fails:
      a start either succeeds or changes nothing. */
  function StartRecording(r: Recorder, output: Path, device: Device): (s: Started)
    ensures s.status.Ok? <==> !r.isRecording && device.StreamReady?
    ensures s.status.Ok? ==> s.recorder == Recorder(true, Some(output))
    ensures s.status.Err? ==> s.recorder == r
    ensures r.isRecording ==> s.status == Err(AlreadyRecording)
  {
    var s := StartRecordingAsWritten(r, output, device);
    if s.status.Err? then Started(r, s.status) else s
  }

  datatype Stopped = Stopped(recorder: Recorder, path: Result<Path>)

  /** `stop_recording`: the flag is always cleared and the recorded file taken. */
  function StopRecording(r: Recorder): (s: Stopped)
    ensures s.recorder == New()
    ensures r.recordedFile.Some? ==> s.path == Ok(r.recordedFile.value)
    ensures r.recordedFile.None? ==> s.path == Err(NoRecording)
  {
    match r.recordedFile
    case Some(p) => Stopped(New(), Ok(p))
    case None => Stopped(New(), Err(NoRecording))
  }

  /** The flag is set exactly while a recorded file is held. */
  predicate Coherent(r: Recorder) {
    r.isRecording <==> r.recordedFile.Some?
  }

  /** The repaired start and the stop keep the recorder coherent. */
  lemma StartStopKeepCoherent(r: Recorder, output: Path, device: Device)
    requires Coherent(r)
    ensures Coherent(StartRecording(r, output, device).recorder)
    ensures Coherent(StopRecording(r).recorder)
  {
  }

  /** A second stop in a row reports that nothing is recording. */
  lemma SecondStopFails(r: Recorder)
    ensures StopRecording(StopRecording(r).recorder).path == Err(NoRecording)
  {
  }

  /** Once a handshake has failed in the code as written, every later start
      fails with "Already recording" until a stop, whatever the device does. */
  lemma HandshakeFailureBlocksStarts(r: Recorder, output: Path, later: Path, device: Device)
    requires Coherent(r) && !r.isRecording
    ensures var failed := StartRecordingAsWritten(r, output, ThreadFailed);
            && failed.status == Err(ThreadError)
            && failed.recorder.isRecording
            && StartRecordingAsWritten(failed.recorder, later, device) == Started(failed.recorder, Err(AlreadyRecording))
            && StopRecording(failed.recorder).path == Err(NoRecording)
  {
  }

  /** What Whisper returns for the decoded samples: a failure before any
      segment (creating the state, running it, counting segments), or one
      result per segment, `None` where fetching a segment's text failed. */
  datatype Inference = InferenceFailed(cause: string) | Segments(texts: seq<Option<string>>)

  /** A recording on disk: it cannot be opened, its samples cannot be read, or
      it decodes and Whisper produces `inference` for it. */
  datatype Wav = Unopenable(cause: string) | BadSamples(cause: string) | Decodes(inference: Inference)

  /** The model file: a usable model, or bytes Whisper cannot load. */
  datatype ModelFile = Usable | Corrupt

  /** What transcription depends on: whether the data directory is known, the
      model file if there is one, and the recordings on disk. */
  datatype TranscribeEnv = TranscribeEnv(dataDirFound: bool, model: Option<ModelFile>, recordings: map<Path, Wav>)

  const DataDirError := "Failed to get app data directory"
  const ModelMissing := "Whisper model not found. Please run the download-model script first."
  const FileNotFound := "No such file or directory (os error 2)"

  /** The texts of the segments that were fetched, in order. */
  function Fetched(segments: seq<Option<string>>): (r: seq<string>)
    ensures |r| <= |segments|
  {
    if |segments| == 0 then []
    else (if segments[0].Some? then [segments[0].value] else []) + Fetched(segments[1..])
  }

  /** Each text followed by one space. */
  function SpaceAfterEach(texts: seq<string>): (r: string)
    ensures |texts| > 0 ==> |r| > 0 && r[|r| - 1] == ' '
  {
    if |texts| == 0 then "" else texts[0] + " " + SpaceAfterEach(texts[1..])
  }

  /** The transcription loop: every fetched segment text followed by a space;
      segments that could not be fetched are skipped. */
  function JoinSegments(segments: seq<Option<string>>): string {
    if |segments| == 0 then ""
    else (if segments[0].Some? then segments[0].value + " " else "") + JoinSegments(segments[1..])
  }

  /** The loop's text is the fetched texts, each followed by a space. */
  lemma {:induction false} JoinSegmentsSpacesFetched(segments: seq<Option<string>>)
    ensures JoinSegments(segments) == SpaceAfterEach(Fetched(segments))
  {
    if |segments| > 0 {
      JoinSegmentsSpacesFetched(segments[1..]);
      var rest := Fetched(segments[1..]);
      if segments[0].Some? {
        var v := segments[0].value;
        assert Fetched(segments) == [v] + rest;
        assert ([v] + rest)[0] == v && ([v] + rest)[1..] == rest;
        assert SpaceAfterEach([v] + rest) == v + " " + SpaceAfterEach(rest);
      } else {
        assert Fetched(segments) == rest;
      }
    }
  }

  /** The transcript `transcribe_audio` returns for the given segments. */
  function Transcript(segments: seq<Option<string>>): (r: string)
    ensures |r| == 0 || (!IsWhitespace(r[0]) && !IsWhitespace(r[|r| - 1]))
    ensures exists i :: SliceAmidWhitespace(JoinSegments(segments), r, i)
  {
    Trim(JoinSegments(segments))
  }

  /** `transcribe_audio`: the checks in the order the code makes them, then the
      joined and trimmed segment texts. Removing the audio file afterwards is
      not part of the model. */
  function TranscribeAudio(path: Path, env: TranscribeEnv): (r: Result<string>)
    ensures !env.dataDirFound ==> r == Err(DataDirError)
    ensures env.dataDirFound && env.model.None? ==> r == Err(ModelMissing)
    ensures env.dataDirFound && env.model.Some? && path !in env.recordings ==> r.Err?
    ensures r.Ok? <==> env.dataDirFound && env.model == Some(Usable) && path in env.recordings
                       && env.recordings[path].Decodes? && env.recordings[path].inference.Segments?
    ensures r.Ok? ==> r.value == Transcript(env.recordings[path].inference.texts)
  {
    if !env.dataDirFound then Err(DataDirError)
    else if env.model.None? then Err(ModelMissing)
    else if path !in env.recordings then Err("Failed to read WAV file: " + FileNotFound)
    else match env.recordings[path]
      case Unopenable(e) => Err("Failed to read WAV file: " + e)
      case BadSamples(e) => Err("Failed to read audio samples: " + e)
      case Decodes(inference) =>
        if env.model.value.Corrupt? then Err("Failed to create whisper context")
        else match inference
          case InferenceFailed(e) => Err(e)
          case Segments(texts) => Ok(Transcript(texts))
  }

  /** The texts separated by single spaces. */
  function JoinWithSpaces(texts: seq<string>): string {
    if |texts| == 0 then ""
    else if |texts| == 1 then texts[0]
    else texts[0] + " " + JoinWithSpaces(texts[1..])
  }

  /** A text that is not empty and neither starts nor ends with whitespace. */
  predicate Clean(t: string) {
    |t| > 0 && !IsWhitespace(t[0]) && !IsWhitespace(t[|t| - 1])
  }

  lemma {:induction false} SpaceAfterEachIsJoinPlusSpace(texts: seq<string>)
    requires |texts| > 0
    ensures SpaceAfterEach(texts) == JoinWithSpaces(texts) + " "
  {
    if |texts| > 1 {
      SpaceAfterEachIsJoinPlusSpace(texts[1..]);
    }
  }

  lemma {:induction false} JoinOfCleanIsClean(texts: seq<string>)
    requires |texts| > 0
    requires forall i :: 0 <= i < |texts| ==> Clean(texts[i])
    ensures Clean(JoinWithSpaces(texts))
    ensures JoinWithSpaces(texts)[0] == texts[0][0]
  {
    if |texts| > 1 {
      JoinOfCleanIsClean(texts[1..]);
    }
  }

  /** When every fetched segment is clean, the transcript is exactly the fetched
      texts separated by single spaces: the trailing space is the only thing trimmed. */
  lemma TranscriptOfCleanSegments(segments: seq<Option<string>>)
    requires forall i :: 0 <= i < |segments| && segments[i].Some? ==> Clean(segments[i].value)
    ensures Transcript(segments) == JoinWithSpaces(Fetched(segments))
  {
    var texts := Fetched(segments);
    JoinSegmentsSpacesFetched(segments);
    FetchedAreClean(segments);
    if |texts| > 0 {
      SpaceAfterEachIsJoinPlusSpace(texts);
      JoinOfCleanIsClean(texts);
      TrimTrailingSpace(JoinWithSpaces(texts));
    }
  }

  lemma {:induction false} FetchedAreClean(segments: seq<Option<string>>)
    requires forall i :: 0 <= i < |segments| && segments[i].Some? ==> Clean(segments[i].value)
    ensures forall i :: 0 <= i < |Fetched(segments)| ==> Clean(Fetched(segments)[i])
  {
    if |segments| > 0 {
      FetchedAreClean(segments[1..]);
    }
  }

  lemma {:induction false} FetchedAppend(a: seq<Option<string>>, b: seq<Option<string>>)
    ensures Fetched(a + b) == Fetched(a) + Fetched(b)
  {
    if |a| == 0 {
      assert a + b == b;
    } else {
      assert (a + b)[0] == a[0] && (a + b)[1..] == a[1..] + b;
      FetchedAppend(a[1..], b);
    }
  }

  /** Segments that could not be fetched leave no trace in the transcript. */
  lemma FailedSegmentsSkipped(before: seq<Option<string>>, after: seq<Option<string>>)
    ensures JoinSegments(before + [None] + after) == JoinSegments(before + after)
  {
    JoinSegmentsSpacesFetched(before + [None] + after);
    JoinSegmentsSpacesFetched(before + after);
    FetchedAppend(before + [None], after);
    FetchedAppend(before, [None]);
    FetchedAppend(before, after);
    var failed: seq<Option<string>> := [None];
    assert Fetched(failed) == [] by {
      assert failed[1..] == [];
    }
    assert Fetched(before + [None]) == Fetched(before);
    assert Fetched(before + [None] + after) == Fetched(before + after);
  }

  /** The model's file name inside the models directory, and its path there. */
  const ModelFileName := "ggml-base.bin"
  const ModelPath := "models/ggml-base.bin"

  /** What fetching the model over HTTP yields: the request fails, reading the
      body fails, or a body arrives, `valid` telling whether it is the model
      (a non-success HTTP response still has a body, an error page). */
  datatype Download = RequestFailed(cause: string) | BodyFailed(cause: string) | Received(valid: bool)

  datatype DownloadIo = DownloadIo(makeDir: Status, download: Download, create: Status, write: Status)

  /** The models directory afterwards, whether a download was attempted, and
      the model path or the error. */
  datatype Ensured = Ensured(models: map<string, ModelFile>, downloaded: bool, path: Result<Path>)

  /** `ensure_model_exists` as written: any file at the model path counts, and a
      failed write or an error page leaves a file there. */
  function EnsureModelExistsAsWritten(models: map<string, ModelFile>, io: DownloadIo): (r: Ensured)
    ensures io.makeDir.Err? ==> r == Ensured(models, false, Err("Failed to create models directory: " + io.makeDir.error))
    ensures io.makeDir.Ok? && ModelFileName in models ==> r == Ensured(models, false, Ok(ModelPath))
    ensures r.downloaded <==> io.makeDir.Ok? && ModelFileName !in models
    ensures r.path.Ok? ==> ModelFileName in r.models
    ensures forall f :: f != ModelFileName ==> (f in r.models <==> f in models)
    ensures io.makeDir.Ok? && ModelFileName !in models && io.download.Received? && io.create.Ok? && io.write.Err?
            ==> r.path.Err? && r.models == models[ModelFileName := Corrupt]
  {
    if io.makeDir.Err? then Ensured(models, false, Err("Failed to create models directory: " + io.makeDir.error))
    else if ModelFileName in models then Ensured(models, false, Ok(ModelPath))
    else match io.download
      case RequestFailed(e) => Ensured(models, true, Err("Failed to download model: " + e))
      case BodyFailed(e) => Ensured(models, true, Err("Failed to get model bytes: " + e))
      case Received(valid) =>
        if io.create.Err? then Ensured(models, true, Err("Failed to create model file: " + io.create.error))
        else if io.write.Err? then
          Ensured(models[ModelFileName := Corrupt], true, Err("Failed to write model file: " + io.write.error))
        else Ensured(models[ModelFileName := if valid then Usable else Corrupt], true, Ok(ModelPath))
  }

  const NotTheModel := "Failed to download model: the response is not the model"

  /** `ensure_model_exists` with the download checked and nothing left behind on
      failure: a model file is only ever written complete. */
  function EnsureModelExists(models: map<string, ModelFile>, io: DownloadIo): (r: Ensured)
    ensures io.makeDir.Err? ==> r.models == models && r.path.Err? && !r.downloaded
    ensures io.makeDir.Ok? && ModelFileName in models ==> r == Ensured(models, false, Ok(ModelPath))
    ensures r.downloaded <==> io.makeDir.Ok? && ModelFileName !in models
    ensures r.path.Err? ==> r.models == models
    ensures r.downloaded && r.path.Ok? ==> r.models == models[ModelFileName := Usable]
  {
    var r := EnsureModelExistsAsWritten(models, io);
    if !r.downloaded then r
    else if io.download.Received? && !io.download.valid && io.create.Ok? && io.write.Ok? then
      Ensured(models, true, Err(NotTheModel))
    else if r.path.Err? then Ensured(models, true, r.path)
    else r
  }

  /** No corrupt file sits at the model path. */
  predicate NoCorruptModel(models: map<string, ModelFile>) {
    ModelFileName in models ==> models[ModelFileName] == Usable
  }

  /** With the repaired check, a directory without a corrupt model stays so, and
      a successful answer means a usable model is in place. */
  lemma EnsureKeepsModelUsable(models: map<string, ModelFile>, io: DownloadIo)
    requires NoCorruptModel(models)
    ensures var r := EnsureModelExists(models, io);
            NoCorruptModel(r.models) && (r.path.Ok? ==> ModelFileName in r.models && r.models[ModelFileName] == Usable)
  {
  }

  /** Once a call has succeeded, calling again downloads nothing, changes
      nothing and answers the same path, in the code as written and as repaired. */
  lemma EnsureIdempotent(models: map<string, ModelFile>, io: DownloadIo, again: DownloadIo)
    requires again.makeDir.Ok?
    ensures var first := EnsureModelExistsAsWritten(models, io);
            first.path.Ok? ==> EnsureModelExistsAsWritten(first.models, again) == Ensured(first.models, false, first.path)
    ensures var first := EnsureModelExists(models, io);
            first.path.Ok? ==> EnsureModelExists(first.models, again) == Ensured(first.models, false, first.path)
  {
  }

  /** As written, a write that fails part-way leaves a corrupt model which the
      next call accepts without downloading, and every transcription then fails. */
  lemma InterruptedDownloadIsAccepted(io: DownloadIo, next: DownloadIo, path: Path, recordings: map<Path, Wav>)
    requires io.makeDir.Ok? && io.download.Received? && io.create.Ok? && io.write.Err?
    requires next.makeDir.Ok?
    ensures var first := EnsureModelExistsAsWritten(map[], io);
            var second := EnsureModelExistsAsWritten(first.models, next);
            && first.path.Err?
            && second.path == Ok(ModelPath) && !second.downloaded
            && second.models[ModelFileName] == Corrupt
            && TranscribeAudio(path, TranscribeEnv(true, Some(second.models[ModelFileName]), recordings)).Err?
  {
  }
}

=== FILE: seqs.dfy ===
/** Order-preserving selection from a sequence (JavaScript's `Array.filter`). */
module Seqs {

  /** The elements of `s` that satisfy `keep`, in their original order. */
  function Filter<T(!new)>(s: seq<T>, keep: T -> bool): (r: seq<T>)
    ensures |r| <= |s|
    ensures forall i :: 0 <= i < |r| ==> keep(r[i])
  {
    if |s| == 0 then [] else (if keep(s[0]) then [s[0]] else []) + Filter(s[1..], keep)
  }

  /** An element survives filtering exactly when it was there and is wanted. */
  lemma {:induction false} FilterMembership<T(!new)>(s: seq<T>, keep: T -> bool)
    ensures forall x :: x in Filter(s, keep) <==> x in s && keep(x)
  {
    if |s| > 0 {
      FilterMembership(s[1..], keep);
      assert forall x :: x in s <==> x == s[0] || x in s[1..];
    }
  }

  /** Filtering a concatenation filters each part: together with the one-element case this
      says `Filter` keeps the relative order of what it keeps. */
  lemma {:induction false} FilterAppend<T(!new)>(a: seq<T>, b: seq<T>, keep: T -> bool)
    ensures Filter(a + b, keep) == Filter(a, keep) + Filter(b, keep)
  {
    if |a| == 0 {
      assert a + b == b;
    } else {
      assert (a + b)[1..] == a[1..] + b;
      FilterAppend(a[1..], b, keep);
    }
  }

  lemma FilterSingleton<T(!new)>(x: T, keep: T -> bool)
    ensures Filter([x], keep) == if keep(x) then [x] else []
  {
    assert [x][1..] == [];
  }

  /** Filtering keeps every wanted element as often as it occurs and drops the rest. */
  lemma {:induction false} FilterMultiset<T(!new)>(s: seq<T>, keep: T -> bool, x: T)
    ensures multiset(Filter(s, keep))[x] == if keep(x) then multiset(s)[x] else 0
  {
    if |s| > 0 {
      assert s == [s[0]] + s[1..];
      FilterMultiset(s[1..], keep, x);
    }
  }

  /** Filtering twice with the same condition changes nothing the second time. */
  lemma {:induction false} FilterIdempotent<T(!new)>(s: seq<T>, keep: T -> bool)
    ensures Filter(Filter(s, keep), keep) == Filter(s, keep)
  {
    if |s| > 0 {
      FilterIdempotent(s[1..], keep);
      var head := if keep(s[0]) then [s[0]] else [];
      FilterAppend(head, Filter(s[1..], keep), keep);
    }
  }
}

=== FILE: store.dfy ===
/** The client's note store (app/src/store/store.ts): the note list, the
    selected note and the theme preference. Every action that calls the backend
    takes that call's outcome as a parameter, changes local state only once the
    call has succeeded, and re-raises the backend's error otherwise. Note ids and
    timestamps (`Date.now()`, `toISOString()`) are parameters too. */
module Store {
  import opened Outcomes
  import opened Notes
  import opened Seqs

  datatype Theme = Light | Dark {
    /** The text the preference is stored as. */
    function Name(): string {
      if Dark? then "dark" else "light"
    }
  }

  /** The local-storage key of the preference and the body class that turns dark styling on. */
  const ThemeKey := "theme"
  const DarkClass := "dark"

  datatype State = State(notes: seq<Note>, selected: Option<Note>, theme: Theme)

  /** What the theme setter touches outside the store: local storage and the document body's classes. */
  datatype Page = Page(storage: map<string, string>, bodyClasses: set<string>)

  /** The state an action leaves and how the action ended: normally, or re-raising an error. */
  datatype Step = Step(state: State, outcome: Status)

  datatype Themed = Themed(state: State, page: Page)

  /** The preference read once, when the store is created. */
  function InitialTheme(storage: map<string, string>): Theme {
    if ThemeKey in storage && storage[ThemeKey] == Dark.Name() then Dark else Light
  }

  /** The store as created: no notes, nothing selected, and dark exactly when "dark" was stored. */
  function Initial(page: Page): (s: State)
    ensures s.notes == [] && s.selected == None
    ensures s.theme == Dark <==> ThemeKey in page.storage && page.storage[ThemeKey] == "dark"
  {
    State([], None, InitialTheme(page.storage))
  }

  /** Selecting is local only: no backend call, no check that the note is in the list. */
  function SelectNote(s: State, note: Option<Note>): (r: State)
    ensures r.selected == note
    ensures r.notes == s.notes && r.theme == s.theme
  {
    s.(selected := note)
  }

  /** `getNotes`: `loaded` is the outcome of `load_notes`. */
  function GetNotes(s: State, loaded: Result<seq<Note>>): (r: Step)
    ensures loaded.Ok? ==> r.outcome == Done && r.state.notes == loaded.value
    ensures loaded.Ok? ==> r.state.selected == s.selected && r.state.theme == s.theme
    ensures loaded.Err? ==> r.state == s && r.outcome == Err(loaded.error)
  {
    match loaded
    case Ok(notes) => Step(s.(notes := notes), Done)
    case Err(e) => Step(s, Err(e))
  }

  /** `createNote`: the note `Note(id, title, content, stamp)` is handed to `save_note`,
      whose outcome is `saved`. */
  function CreateNote(s: State, title: string, content: string, id: int, stamp: string, saved: Status): (r: Step)
    ensures saved.Ok? ==> r.outcome == Done && |r.state.notes| == |s.notes| + 1
    ensures saved.Ok? ==> r.state.notes[0] == Note(id, title, content, stamp) && r.state.notes[1..] == s.notes
    ensures saved.Ok? ==> r.state.selected == Some(Note(id, title, content, stamp)) && r.state.theme == s.theme
    ensures saved.Err? ==> r.state == s && r.outcome == saved
  {
    if saved.Err? then Step(s, saved)
    else
      var note := Note(id, title, content, stamp);
      Step(s.(notes := [note] + s.notes, selected := Some(note)), Done)
  }

  /** `notes.map(n => n.id === id ? note : n)`. */
  function ReplaceById(notes: seq<Note>, id: int, note: Note): (r: seq<Note>)
    ensures |r| == |notes|
    ensures forall i :: 0 <= i < |r| ==> r[i] == if notes[i].id == id then note else notes[i]
  {
    if |notes| == 0 then []
    else [if notes[0].id == id then note else notes[0]] + ReplaceById(notes[1..], id, note)
  }

  /** `updateNote`: the note `Note(id, title, content, stamp)` is handed to `save_note`,
      whose outcome is `saved`. */
  function UpdateNote(s: State, id: int, title: string, content: string, stamp: string, saved: Status): (r: Step)
    ensures saved.Ok? ==> r.outcome == Done && |r.state.notes| == |s.notes|
    ensures saved.Ok? ==> forall i :: 0 <= i < |s.notes| ==>
              r.state.notes[i] == if s.notes[i].id == id then Note(id, title, content, stamp) else s.notes[i]
    ensures saved.Ok? ==> r.state.selected == Some(Note(id, title, content, stamp)) && r.state.theme == s.theme
    ensures saved.Err? ==> r.state == s && r.outcome == saved
  {
    if saved.Err? then Step(s, saved)
    else
      var note := Note(id, title, content, stamp);
      Step(s.(notes := ReplaceById(s.notes, id, note), selected := Some(note)), Done)
  }

  /** `deleteNote`: `removed` is the outcome of `delete_note`. */
  function DeleteNote(s: State, id: int, removed: Status): (r: Step)
    ensures removed.Ok? ==> r.outcome == Done && r.state.notes == Filter(s.notes, OtherId(id))
    ensures removed.Ok? ==> forall n :: n in r.state.notes <==> n in s.notes && n.id != id
    ensures removed.Ok? ==> forall n :: multiset(r.state.notes)[n] == if n.id != id then multiset(s.notes)[n] else 0
    ensures removed.Ok? ==> (r.state.selected == None <==> s.selected == None || s.selected.value.id == id)
    ensures removed.Ok? && r.state.selected != None ==> r.state.selected == s.selected
    ensures removed.Ok? ==> r.state.theme == s.theme
    ensures removed.Err? ==> r.state == s && r.outcome == removed
  {
    if removed.Err? then Step(s, removed)
    else
      var selected := if s.selected.Some? && s.selected.value.id == id then None else s.selected;
      FilterMembership(s.notes, OtherId(id));
      assert forall n :: multiset(Filter(s.notes, OtherId(id)))[n] == if n.id != id then multiset(s.notes)[n] else 0 by {
        forall n ensures multiset(Filter(s.notes, OtherId(id)))[n] == if n.id != id then multiset(s.notes)[n] else 0 {
          FilterMultiset(s.notes, OtherId(id), n);
        }
      }
      Step(s.(notes := Filter(s.notes, OtherId(id)), selected := selected), Done)
  }

  /** `setTheme(theme?)`: the given theme, or the current one when none is given,
      becomes the store's theme, is written to local storage, and decides whether
      the body carries the dark class. */
  function SetTheme(s: State, page: Page, theme: Option<Theme>): (r: Themed)
    ensures r.state.theme == theme.GetOr(s.theme)
    ensures r.state.notes == s.notes && r.state.selected == s.selected
    ensures r.page.storage == page.storage[ThemeKey := r.state.theme.Name()]
    ensures DarkClass in r.page.bodyClasses <==> r.state.theme == Dark
    ensures r.page.bodyClasses - {DarkClass} == page.bodyClasses - {DarkClass}
  {
    var t := theme.GetOr(s.theme);
    var classes := if t == Dark then page.bodyClasses + {DarkClass} else page.bodyClasses - {DarkClass};
    Themed(s.(theme := t), Page(page.storage[ThemeKey := t.Name()], classes))
  }

  /** A successful update never changes which ids the list holds, nor their order. */
  lemma UpdateKeepsIds(s: State, id: int, title: string, content: string, stamp: string)
    ensures Ids(UpdateNote(s, id, title, content, stamp, Done).state.notes) == Ids(s.notes)
  {
  }

  /** After a successful update the list holds the new note wherever `id` was,
      and nothing else carries that id. */
  lemma UpdateLeavesOneVersion(s: State, id: int, title: string, content: string, stamp: string)
    ensures forall n :: n in UpdateNote(s, id, title, content, stamp, Done).state.notes && n.id == id
              ==> n == Note(id, title, content, stamp)
  {
  }

  /** Deleting the same id twice, both times successfully, is the same as deleting it once. */
  lemma DeleteTwiceIsDeleteOnce(s: State, id: int)
    ensures DeleteNote(DeleteNote(s, id, Done).state, id, Done) == DeleteNote(s, id, Done)
  {
    FilterIdempotent(s.notes, OtherId(id));
  }

  /** Deleting from a list made of two parts deletes from each part, so the
      survivors keep their relative order. */
  lemma DeleteKeepsOrder(s: State, id: int, front: seq<Note>, back: seq<Note>)
    requires s.notes == front + back
    ensures DeleteNote(s, id, Done).state.notes == Filter(front, OtherId(id)) + Filter(back, OtherId(id))
  {
    FilterAppend(front, back, OtherId(id));
  }

  /** The selected note, if any, is one of the listed notes. */
  predicate SelectionListed(s: State) {
    s.selected.Some? ==> s.selected.value in s.notes
  }

  /** Creating, deleting, updating a listed id and selecting a listed note keep
      the selection among the listed notes. */
  lemma SelectionStaysListed(s: State, title: string, content: string, id: int, stamp: string, n: Note)
    requires SelectionListed(s)
    ensures SelectionListed(CreateNote(s, title, content, id, stamp, Done).state)
    ensures SelectionListed(DeleteNote(s, id, Done).state)
    ensures id in Ids(s.notes) ==> SelectionListed(UpdateNote(s, id, title, content, stamp, Done).state)
    ensures n in s.notes ==> SelectionListed(SelectNote(s, Some(n)))
  {
    var created := CreateNote(s, title, content, id, stamp, Done).state;
    assert created.notes[0] == created.selected.value;
    if id in Ids(s.notes) {
      var k :| 0 <= k < |s.notes| && Ids(s.notes)[k] == id;
      var updated := UpdateNote(s, id, title, content, stamp, Done).state;
      assert updated.notes[k] == updated.selected.value;
    }
  }

  /** Nothing else keeps the selection listed: selecting does not check the list,
      a load keeps a selection the new list lacks, and updating an id the list
      does not hold selects a note that is not listed. */
  lemma SelectionCanDangle(s: State, n: Note, loaded: seq<Note>, id: int, title: string, content: string, stamp: string)
    ensures n !in s.notes ==> !SelectionListed(SelectNote(s, Some(n)))
    ensures s.selected.Some? && s.selected.value !in loaded ==> !SelectionListed(GetNotes(s, Ok(loaded)).state)
    ensures id !in Ids(s.notes) ==> !SelectionListed(UpdateNote(s, id, title, content, stamp, Done).state)
  {
    if id !in Ids(s.notes) {
      var updated := UpdateNote(s, id, title, content, stamp, Done).state;
      assert updated.notes == s.notes by {
        forall i | 0 <= i < |s.notes| ensures updated.notes[i] == s.notes[i] {
          assert Ids(s.notes)[i] == s.notes[i].id;
        }
      }
    }
  }

  /** The theme setter called without an argument is idempotent. */
  lemma ReapplyThemeIdempotent(s: State, page: Page)
    ensures var once := SetTheme(s, page, None);
            SetTheme(once.state, once.page, None) == once
  {
    var once := SetTheme(s, page, None);
    var twice := SetTheme(once.state, once.page, None);
    assert twice.page.bodyClasses == once.page.bodyClasses;
  }

  /** The stored preference reads back as the theme that was set: a store
      created from the page after `setTheme` starts with that theme. */
  lemma StoredThemeReadsBack(s: State, page: Page, theme: Option<Theme>)
    ensures var r := SetTheme(s, page, theme);
            Initial(r.page).theme == r.state.theme
  {
  }

  /** Startup re-applies the stored preference: with "dark" stored, the body
      gets the dark class and local storage is left as it was. */
  lemma StartupKeepsStoredDark(page: Page)
    requires ThemeKey in page.storage && page.storage[ThemeKey] == "dark"
    ensures var r := SetTheme(Initial(page), page, None);
            r.page.storage == page.storage && DarkClass in r.page.bodyClasses && r.state.theme == Dark
  {
  }

  /** One `createNote` call of a session: its arguments, the id and time it is
      given, and the outcome of its `save_note`. */
  datatype CreateCall = CreateCall(title: string, content: string, id: int, stamp: string, saved: Status) {
    function Drafted(): Note {
      Note(id, title, content, stamp)
    }
  }

  /** The store after `calls` were made one after another. */
  function CreateAll(s: State, calls: seq<CreateCall>): State
    decreases |calls|
  {
    if |calls| == 0 then s
    else
      var c := calls[|calls| - 1];
      CreateNote(CreateAll(s, calls[..|calls| - 1]), c.title, c.content, c.id, c.stamp, c.saved).state
  }

  function SuccessCount(calls: seq<CreateCall>): nat {
    if |calls| == 0 then 0
    else SuccessCount(calls[..|calls| - 1]) + (if calls[|calls| - 1].saved.Ok? then 1 else 0)
  }

  /** The note of the last call whose save succeeded, if any. */
  function LastSaved(calls: seq<CreateCall>): Option<Note> {
    if |calls| == 0 then None
    else if calls[|calls| - 1].saved.Ok? then Some(calls[|calls| - 1].Drafted())
    else LastSaved(calls[..|calls| - 1])
  }

  /** After a run of `createNote` calls the list has grown by the number of saves
      that succeeded, and the note of the last such call is first and selected. */
  lemma {:induction false} CreateAllGrowsBySuccesses(s: State, calls: seq<CreateCall>)
    ensures |CreateAll(s, calls).notes| == |s.notes| + SuccessCount(calls)
    ensures LastSaved(calls).Some? <==> SuccessCount(calls) > 0
    ensures LastSaved(calls).Some? ==> CreateAll(s, calls).notes[0] == LastSaved(calls).value
    ensures LastSaved(calls).Some? ==> CreateAll(s, calls).selected == LastSaved(calls)
    ensures LastSaved(calls).None? ==> CreateAll(s, calls) == s
    decreases |calls|
  {
    if |calls| > 0 {
      CreateAllGrowsBySuccesses(s, calls[..|calls| - 1]);
    }
  }
}

=== FILE: text.dfy ===
/** String facts the model relies on: prefix tests, Rust's whitespace trimming,
    Rust's ordering of `String`s, and the decimal rendering of integers that
    `format!("{}", id)` produces. */
module Text {

  /** JavaScript's `s.startsWith(prefix)`. */
  predicate StartsWith(s: string, prefix: string) {
    |prefix| <= |s| && s[..|prefix|] == prefix
  }

  /** The Unicode `White_Space` property, which is what Rust's `str::trim` strips. */
  predicate IsWhitespace(c: char) {
    || ('\U{9}' <= c <= '\U{D}')
    || c == ' ' || c == '\U{85}' || c == '\U{A0}' || c == '\U{1680}'
    || ('\U{2000}' <= c <= '\U{200A}')
    || c == '\U{2028}' || c == '\U{2029}' || c == '\U{202F}' || c == '\U{205F}' || c == '\U{3000}'
  }

  /** `s` with its leading whitespace removed: a suffix of `s`, all of whose cut
      characters are whitespace, that does not itself start with whitespace. */
  function TrimStart(s: string): (r: string)
    ensures |r| <= |s| && r == s[|s| - |r|..]
    ensures forall i :: 0 <= i < |s| - |r| ==> IsWhitespace(s[i])
    ensures |r| == 0 || !IsWhitespace(r[0])
  {
    if |s| > 0 && IsWhitespace(s[0]) then TrimStart(s[1..]) else s
  }

  /** `s` with its trailing whitespace removed: a prefix of `s`, all of whose cut
      characters are whitespace, that does not itself end with whitespace. */
  function TrimEnd(s: string): (r: string)
    ensures |r| <= |s| && r == s[..|r|]
    ensures forall i :: |r| <= i < |s| ==> IsWhitespace(s[i])
    ensures |r| == 0 || !IsWhitespace(r[|r| - 1])
  {
    if |s| > 0 && IsWhitespace(s[|s| - 1]) then TrimEnd(s[..|s| - 1]) else s
  }

  /** `r` is the slice of `s` starting at `i`, and only whitespace lies around it. */
  predicate SliceAmidWhitespace(s: string, r: string, i: int) {
    && 0 <= i <= |s| - |r|
    && r == s[i..i + |r|]
    && (forall k :: 0 <= k < i ==> IsWhitespace(s[k]))
    && (forall k :: i + |r| <= k < |s| ==> IsWhitespace(s[k]))
  }

  /** Rust's `str::trim`: the slice of `s` left after whitespace is stripped from both ends. */
  function Trim(s: string): (r: string)
    ensures exists i :: SliceAmidWhitespace(s, r, i)
    ensures |r| == 0 || (!IsWhitespace(r[0]) && !IsWhitespace(r[|r| - 1]))
  {
    TrimEndThenStart(s);
    TrimStart(TrimEnd(s))
  }

  lemma TrimEndThenStart(s: string)
    ensures var e := TrimEnd(s);
            var r := TrimStart(e);
            && SliceAmidWhitespace(s, r, |e| - |r|)
            && (|r| == 0 || (!IsWhitespace(r[0]) && !IsWhitespace(r[|r| - 1])))
  {
    var e := TrimEnd(s);
    var r := TrimStart(e);
    var i := |e| - |r|;
    SliceOfPrefix(s, e, r);
    LeadingWhitespace(s, e, i);
    if |r| > 0 {
      assert r[|r| - 1] == e[|e| - 1];
    }
  }

  lemma SliceOfPrefix(s: string, e: string, r: string)
    requires |e| <= |s| && e == s[..|e|]
    requires |r| <= |e| && r == e[|e| - |r|..]
    ensures r == s[|e| - |r|..|e|]
  {
  }

  lemma LeadingWhitespace(s: string, e: string, i: int)
    requires 0 <= i <= |e| <= |s| && e == s[..|e|]
    requires forall k :: 0 <= k < i ==> IsWhitespace(e[k])
    ensures forall k :: 0 <= k < i ==> IsWhitespace(s[k])
  {
    forall k | 0 <= k < i ensures IsWhitespace(s[k]) {
      assert s[k] == e[k];
    }
  }

  /** Text that starts and ends with non-whitespace is left alone by `Trim`. */
  lemma {:induction false} TrimOfTrimmed(s: string)
    requires |s| == 0 || (!IsWhitespace(s[0]) && !IsWhitespace(s[|s| - 1]))
    ensures Trim(s) == s
  {
  }

  /** A single space after text that already starts and ends with non-whitespace
      is all that `Trim` takes away. */
  lemma TrimTrailingSpace(s: string)
    requires |s| == 0 || (!IsWhitespace(s[0]) && !IsWhitespace(s[|s| - 1]))
    ensures Trim(s + " ") == s
  {
    var t := s + " ";
    assert t[..|t| - 1] == s;
    assert TrimEnd(t) == TrimEnd(s);
    TrimOfTrimmed(s);
  }

  /** Trimming is idempotent. */
  lemma TrimIdempotent(s: string)
    ensures Trim(Trim(s)) == Trim(s)
  {
    TrimOfTrimmed(Trim(s));
  }

  /** Rust's `Ord` for `String`: lexicographic by character, a proper prefix first.
      (Rust compares UTF-8 bytes, which orders text exactly as code points do.) */
  predicate LexLe(a: string, b: string) {
    if |a| == 0 then true
    else if |b| == 0 then false
    else if a[0] != b[0] then a[0] < b[0]
    else LexLe(a[1..], b[1..])
  }

  lemma {:induction false} LexLeReflexive(a: string)
    ensures LexLe(a, a)
  {
    if |a| > 0 {
      LexLeReflexive(a[1..]);
    }
  }

  lemma {:induction false} LexLeTotal(a: string, b: string)
    ensures LexLe(a, b) || LexLe(b, a)
  {
    if |a| > 0 && |b| > 0 && a[0] == b[0] {
      LexLeTotal(a[1..], b[1..]);
    }
  }

  lemma {:induction false} LexLeTransitive(a: string, b: string, c: string)
    requires LexLe(a, b) && LexLe(b, c)
    ensures LexLe(a, c)
  {
    if |a| > 0 && |b| > 0 && |c| > 0 && a[0] == b[0] && b[0] == c[0] {
      LexLeTransitive(a[1..], b[1..], c[1..]);
    }
  }

  lemma {:induction false} LexLeAntisymmetric(a: string, b: string)
    requires LexLe(a, b) && LexLe(b, a)
    ensures a == b
  {
    if |a| > 0 {
      LexLeAntisymmetric(a[1..], b[1..]);
      assert a == [a[0]] + a[1..] && b == [b[0]] + b[1..];
    }
  }

  function DigitChar(d: nat): char
    requires d < 10
  {
    "0123456789"[d]
  }

  function DigitValue(c: char): nat {
    if '0' <= c <= '9' then (c as int - '0' as int) as nat else 0
  }

  predicate IsDigit(c: char) {
    '0' <= c <= '9'
  }

  /** The decimal digits of `n`, most significant first, without leading zeros. */
  function Digits(n: nat): (r: string)
    ensures |r| > 0
    ensures forall k :: 0 <= k < |r| ==> IsDigit(r[k])
  {
    if n < 10 then [DigitChar(n)] else Digits(n / 10) + [DigitChar(n % 10)]
  }

  /** Rust's `format!("{}", i)` for an integer: its digits, with a leading `-` when negative. */
  function IntToString(i: int): (r: string)
    ensures |r| > 0 && (IsDigit(r[0]) || r[0] == '-')
    ensures forall k :: 0 < k < |r| ==> IsDigit(r[k])
  {
    if i < 0 then "-" + Digits(-i) else Digits(i)
  }

  /** Reads back a run of decimal digits. */
  function ParseDigits(s: string): nat {
    if |s| == 0 then 0 else ParseDigits(s[..|s| - 1]) * 10 + DigitValue(s[|s| - 1])
  }

  /** Reads back an optionally signed decimal integer. */
  function ParseInt(s: string): int {
    if |s| > 0 && s[0] == '-' then -(ParseDigits(s[1..]) as int) else ParseDigits(s)
  }

  lemma {:induction false} DigitsRoundTrip(n: nat)
    ensures ParseDigits(Digits(n)) == n
  {
    if n >= 10 {
      var d := Digits(n);
      assert d[..|d| - 1] == Digits(n / 10);
      DigitsRoundTrip(n / 10);
    }
  }

  /** Rendering an integer in decimal loses nothing: it can be read back. */
  lemma IntToStringRoundTrip(i: int)
    ensures ParseInt(IntToString(i)) == i
  {
    if i < 0 {
      DigitsRoundTrip(-i);
      assert IntToString(i)[1..] == Digits(-i);
    } else {
      DigitsRoundTrip(i);
    }
  }

  /** Distinct integers render as distinct strings. */
  lemma IntToStringInjective(i: int, j: int)
    requires IntToString(i) == IntToString(j)
    ensures i == j
  {
    IntToStringRoundTrip(i);
    IntToStringRoundTrip(j);
  }
}

=== FILE: timestamp_order.dfy ===
/** The order `load_notes` returns notes in: Rust's stable
    `notes.sort_by(|a, b| b.timestamp.cmp(&a.timestamp))`, newest timestamp
    text first, notes with equal timestamps kept in the order they were read. */
module TimestampOrder {
  import opened Notes
  import opened Text
  import opened Seqs

  /** No later entry has a greater timestamp than an earlier one. */
  predicate NewestFirst(s: seq<Note>) {
    forall i, j :: 0 <= i < j < |s| ==> LexLe(s[j].timestamp, s[i].timestamp)
  }

  /** The condition "carries timestamp `t`": the notes a stable sort must keep in input order. */
  function StampedAt(t: string): Note -> bool {
    (n: Note) => n.timestamp == t
  }

  /** Places `x` in front of the first entry whose timestamp is not greater than its own. */
  function Insert(x: Note, s: seq<Note>): (r: seq<Note>)
    ensures multiset(r) == multiset(s) + multiset{x}
  {
    if |s| == 0 then [x]
    else if LexLe(s[0].timestamp, x.timestamp) then [x] + s
    else
      assert s == [s[0]] + s[1..];
      [s[0]] + Insert(x, s[1..])
  }

  /** Insertion sort from the back: each note goes in front of the already sorted
      later notes that do not outrank it, which is what makes the sort stable. */
  function SortNewestFirst(s: seq<Note>): (r: seq<Note>)
    ensures multiset(r) == multiset(s)
  {
    if |s| == 0 then []
    else
      assert s == [s[0]] + s[1..];
      Insert(s[0], SortNewestFirst(s[1..]))
  }

  /** No entry of `s` has a timestamp greater than `t`. */
  predicate NoneNewerThan(s: seq<Note>, t: string) {
    forall j :: 0 <= j < |s| ==> LexLe(s[j].timestamp, t)
  }

  /** An ordered sequence stays ordered under a head that none of it outranks. */
  lemma ConsKeepsOrder(h: Note, s: seq<Note>)
    requires NewestFirst(s) && NoneNewerThan(s, h.timestamp)
    ensures NewestFirst([h] + s)
  {
    var r := [h] + s;
    forall i, j | 0 <= i < j < |r|
      ensures LexLe(r[j].timestamp, r[i].timestamp)
    {
      assert r[j] == s[j - 1];
      if i > 0 {
        assert r[i] == s[i - 1];
      }
    }
  }

  /** An ordered sequence is bounded by its own first timestamp, and so by anything above it. */
  lemma {:induction false} OrderedBoundedByHead(s: seq<Note>, t: string)
    requires |s| > 0 && NewestFirst(s) && LexLe(s[0].timestamp, t)
    ensures NoneNewerThan(s, t)
  {
    forall j | 0 <= j < |s|
      ensures LexLe(s[j].timestamp, t)
    {
      if j > 0 {
        LexLeTransitive(s[j].timestamp, s[0].timestamp, t);
      }
    }
  }

  lemma {:induction false} InsertKeepsBound(x: Note, s: seq<Note>, t: string)
    requires NoneNewerThan(s, t) && LexLe(x.timestamp, t)
    ensures NoneNewerThan(Insert(x, s), t)
  {
    if |s| > 0 && !LexLe(s[0].timestamp, x.timestamp) {
      var tail := Insert(x, s[1..]);
      assert NoneNewerThan(s[1..], t) by {
        forall j | 0 <= j < |s[1..]| ensures LexLe(s[1..][j].timestamp, t) {
          assert s[1..][j] == s[j + 1];
        }
      }
      InsertKeepsBound(x, s[1..], t);
      assert Insert(x, s) == [s[0]] + tail;
      forall j | 0 <= j < |Insert(x, s)| ensures LexLe(Insert(x, s)[j].timestamp, t) {
        if j > 0 {
          assert Insert(x, s)[j] == tail[j - 1];
        }
      }
    } else if |s| > 0 {
      var r := Insert(x, s);
      assert r == [x] + s;
      forall j | 0 <= j < |r| ensures LexLe(r[j].timestamp, t) {
        if j > 0 {
          assert r[j] == s[j - 1];
        }
      }
    }
  }

  lemma {:induction false} InsertKeepsOrder(x: Note, s: seq<Note>)
    requires NewestFirst(s)
    ensures NewestFirst(Insert(x, s))
  {
    if |s| == 0 {
    } else if LexLe(s[0].timestamp, x.timestamp) {
      OrderedBoundedByHead(s, x.timestamp);
      ConsKeepsOrder(x, s);
    } else {
      LexLeTotal(s[0].timestamp, x.timestamp);
      LexLeReflexive(s[0].timestamp);
      assert NewestFirst(s[1..]) by {
        forall i, j | 0 <= i < j < |s[1..]| ensures LexLe(s[1..][j].timestamp, s[1..][i].timestamp) {
          assert s[1..][i] == s[i + 1] && s[1..][j] == s[j + 1];
        }
      }
      OrderedBoundedByHead(s, s[0].timestamp);
      assert NoneNewerThan(s[1..], s[0].timestamp) by {
        forall j | 0 <= j < |s[1..]| ensures LexLe(s[1..][j].timestamp, s[0].timestamp) {
          assert s[1..][j] == s[j + 1];
        }
      }
      InsertKeepsOrder(x, s[1..]);
      InsertKeepsBound(x, s[1..], s[0].timestamp);
      ConsKeepsOrder(s[0], Insert(x, s[1..]));
    }
  }

  /** The sort's result is ordered newest first. */
  lemma {:induction false} SortIsOrdered(s: seq<Note>)
    ensures NewestFirst(SortNewestFirst(s))
  {
    if |s| > 0 {
      SortIsOrdered(s[1..]);
      InsertKeepsOrder(s[0], SortNewestFirst(s[1..]));
    }
  }

  /** Among notes with timestamp `t`, the inserted note lands in front of all others. */
  lemma {:induction false} InsertStable(x: Note, s: seq<Note>, t: string)
    ensures Filter(Insert(x, s), StampedAt(t))
         == (if x.timestamp == t then [x] else []) + Filter(s, StampedAt(t))
  {
    var keep := StampedAt(t);
    var front := if x.timestamp == t then [x] else [];
    assert keep(x) == (x.timestamp == t);
    FilterSingleton(x, keep);
    if |s| == 0 {
      assert Insert(x, s) == [x];
      assert Filter(s, keep) == [];
      assert front + [] == front;
    } else if LexLe(s[0].timestamp, x.timestamp) {
      assert Insert(x, s) == [x] + s;
      FilterAppend([x], s, keep);
    } else {
      LexLeReflexive(x.timestamp);
      assert s[0].timestamp != x.timestamp;
      var rest := Insert(x, s[1..]);
      assert Insert(x, s) == [s[0]] + rest;
      InsertStable(x, s[1..], t);
      FilterAppend([s[0]], rest, keep);
      assert s == [s[0]] + s[1..];
      FilterAppend([s[0]], s[1..], keep);
      FilterSingleton(s[0], keep);
      var head := Filter([s[0]], keep);
      assert head == [] || front == [];
      Regroup(head, front, Filter(s[1..], keep));
    }
  }

  /** When one of two prefixes is empty, their order in front of a common tail is immaterial. */
  lemma Regroup<T>(head: seq<T>, front: seq<T>, tail: seq<T>)
    requires head == [] || front == []
    ensures head + (front + tail) == front + (head + tail)
  {
    if head == [] {
      assert head + (front + tail) == front + tail;
    } else {
      assert front + (head + tail) == head + tail;
    }
  }

  /** The sort is stable: for every timestamp, the notes carrying it appear in
      the result in exactly the order they had in the input. */
  lemma {:induction false} SortIsStable(s: seq<Note>, t: string)
    ensures Filter(SortNewestFirst(s), StampedAt(t)) == Filter(s, StampedAt(t))
  {
    if |s| > 0 {
      SortIsStable(s[1..], t);
      InsertStable(s[0], SortNewestFirst(s[1..]), t);
    }
  }
}
